=== FILE: README.md ===
# Products Manager: a Dafny model

This project models the product catalogue of the `hello-elementor-child`
WordPress theme. The catalogue has two halves.

- **Server:** the `jeec/v1` REST routes of `inc/rest-api.php`. They cover the
  permission check, list, get, create, update and delete of `product` posts,
  the product meta writes, and the category list.
- **Client:** the React admin app that calls those routes:
  - the request builders (`src/api/products.ts`);
  - the `useProducts` hook;
  - the product table with its delete confirmation;
  - the add/edit form;
  - the category checkboxes;
  - the root component's screen and notice state.

Where the source updates state in place, the model does the same. Each of these
is a class whose methods change their fields:

- the WordPress store behind the handlers (`RestApi.ProductStore`);
- the hook's `products`/`loading` cells;
- the table's `deletingId`/`isDeleting`;
- the form's fields with `loading`/`saving`;
- the app's `screen`/`editingId`/`notice`.

Pure mappings are functions: formatting a product, building a request,
toggling a category, assembling the form payload.

An awaited request is two method calls. The first sends the request, and the
method returns the request it sends. The second settles it with the outcome:
`Resolved(value)` or `Rejected`.

The WordPress functions whose code lies outside the repository are fields of an
injected `WordPress` value:

- `sanitize_text_field`, `wp_kses_post` and `esc_url_raw`;
- reading a float out of a string;
- the thumbnail URL of an attachment;
- whether a post matches a search phrase;
- the site's posts-per-page option.

The same goes for JavaScript's `String(number)` and `Number.parseFloat` in the
form. These are the `show` and `parse` parameters.

The model connects the two halves:

- each request the client builds reaches the server route it is meant for, with
  the id and body it carries;
- what the server then does with that body is proved about the handler model.

Modules, one per file:

| module | file | models |
|---|---|---|
| `Wrappers`, `Types`, `Seqs` | `wrappers.dfy`, `types.dfy`, `seqs.dfy` | `Option`; the shapes of `src/types/index.ts`; `Array.prototype.filter` |
| `Json`, `Decimal` | `json.dfy`, `decimal.dfy` | the decoded JSON body and PHP's `isset`, `??`, `(int)`, `absint`, `floatval`; how JavaScript writes an integer and how PHP reads it back |
| `RestRoutes` | `rest_routes.dfy` | the route table of `jeec_register_rest_routes` and how a request URL and method select a handler |
| `RestApi` | `rest_api.dfy` | the handlers and the store |
| `ProductsApi` | `products_api.dfy` | `src/api/products.ts` and how each request reaches its route |
| `UseProducts`, `ProductList`, `ProductForm`, `CategorySelector`, `App` | `use_products.dfy`, `product_list.dfy`, `product_form.dfy`, `category_selector.dfy`, `app.dfy` | the components and the hook |

Three behaviours of the code are easy to misread; the model follows the code:

- **Blank price:** only an empty price box is sent as 0, because of
  `price ? parseFloat(price) : 0`. Both price inputs are number inputs, which
  report non-numeric text as the empty string, so a box holding only spaces
  cannot reach `parseFloat` from the form.
- **Categories:** they are kept as an ordered list with possible repeats, in the
  order the boxes were ticked.
- **Edit mode:** the form edits only when `productId` is truthy. An id of 0
  therefore opens a create form.

## Model

| member | source | states |
|---|---|---|
| RestApi.PermissionCheck | inc/rest-api.php:99-108 | the request passes exactly when the user can edit posts; otherwise the error is `rest_forbidden` with status 403 |
| RestApi.ProductStore.Dispatch | inc/rest-api.php:26-91 | every route runs the permission check first; a refused request answers 403 and leaves posts and the id counter unchanged; a permitted request gets its handler's answer and store change: the list page with its totals, the created post under the next id or the insert error, the updated post or 404, the removal or 404/500; reads never change the store |
| RestApi.Format | inc/rest-api.php:116-143 | the product carries the post's id, title, content, prices, sale flag, video, status, date, thumbnail id and categories; the image URL is empty when there is no thumbnail or the attachment has no image, and otherwise is the attachment's thumbnail URL |
| RestApi.GetProduct | inc/rest-api.php:186-198 | 404 `not_found` exactly when the id is not a post of type `product`; otherwise 200 with that post formatted (`Format` of the stored post under that id) |
| RestApi.ResolveListArgs | inc/rest-api.php:35-48 | `per_page` defaults to 20, `page` to 1 and `search` to the empty string |
| RestApi.Matching | inc/rest-api.php:152-164 | exactly the published products matching the search (when one is given), in strictly descending id order, i.e. newest first |
| RestApi.PageOf | inc/rest-api.php:155-156 | page p of size n is the slice [(p-1)*n, p*n) of the ordered list, cut at its end |
| RestApi.QueryPerPage | inc/rest-api.php:155 | a page size of 0 takes the site option when that is positive, and 1 when the option is 0 too; a positive size is kept |
| RestApi.QueryPage | inc/rest-api.php:156 | page 0 is page 1; a positive page is kept |
| RestApi.Query | inc/rest-api.php:152-166 | the ids are exactly page `paged` of size `posts_per_page` (PageOf) of the listed products newest first, so only listed products, in descending order; a non-empty page reports the number of listed products, an empty one a total of 0 and 0 pages (`WP_Query` skips counting when the page is empty) |
| RestApi.QueryTotals | inc/rest-api.php:166-175 | a page within the page count is non-empty and carries the total and the page count; a page past it is empty with both headers 0 |
| RestApi.PageOfPosition | inc/rest-api.php:155-156 | the product at position i of the list appears on page i/n+1 at offset i%n |
| RestApi.PageNonEmptyIffWithinTotal | inc/rest-api.php:174-175 | a page is non-empty exactly when its number is at most the `X-WP-TotalPages` header, ceil(total/n) |
| RestApi.LeDivIff | inc/rest-api.php:175 | p <= x/n exactly when p*n <= x, the fact relating a page number to the page count |
| RestApi.PaginationExample | inc/rest-api.php:151-178 | with 5 products and 2 per page, page 1 holds 2 products and there are 3 pages |
| RestApi.ProductStore.GetProducts | inc/rest-api.php:151-178 | 200 with the query's page, each post formatted in order, plus the total and page-count headers |
| RestApi.ProductStore.FormatEach | inc/rest-api.php:169-171 | the `foreach` loop yields one formatted product per id, in the same order |
| RestApi.CreatedProduct | inc/rest-api.php:209-224 | a created product is published, dated now, and carries the new id; an absent title is the sanitised empty string, and every meta field absent from the body takes its empty value (0, false, "", no image, no categories) |
| RestApi.ProductStore.CreateProduct | inc/rest-api.php:206-225 | an insert error is returned unchanged and nothing is stored; otherwise exactly one post is added under a fresh id and the answer is 201 with it |
| RestApi.UpdateKeepsUnsetFields | inc/rest-api.php:245-257 | an update leaves type, status and date alone, and changes a field only if its key is set in the body |
| RestApi.MetaKeepsUnsetFields | inc/rest-api.php:302-331 | each meta write happens only under `isset` of its key |
| RestApi.MetaKeepsPostFields | inc/rest-api.php:302-331 | the meta writes never touch type, status, date, title or content |
| RestApi.FeaturedImageRules | inc/rest-api.php:319-326 | a nonzero `featured_image_id` sets the image; zero clears it (id 0, empty URL); an absent key leaves both id and URL as they were |
| RestApi.CategoriesReplacedOnlyByArray | inc/rest-api.php:328-330 | a `categories` array replaces the whole list with its `intval`s; anything else leaves the list alone |
| RestApi.ProductStore.UpdateProduct | inc/rest-api.php:233-260 | 404 with the store unchanged when the id is not a product; otherwise that one post is updated and 200 returned with it |
| RestApi.ProductStore.UpdateProductMeta | inc/rest-api.php:302-331 | the six meta writes in source order change only that post, to the value the meta-step functions give |
| RestApi.ProductStore.SavePrice | inc/rest-api.php:303-305 | `_price` is written (as `floatval`) only when `price` is set |
| RestApi.ProductStore.SaveSalePrice | inc/rest-api.php:307-309 | `_sale_price` is written only when `sale_price` is set |
| RestApi.ProductStore.SaveOnSale | inc/rest-api.php:311-313 | `_is_on_sale` is written (as a bool cast) only when set |
| RestApi.ProductStore.SaveVideo | inc/rest-api.php:315-317 | `_youtube_video` is written, URL-escaped, only when set |
| RestApi.ProductStore.SaveFeaturedImage | inc/rest-api.php:319-326 | the thumbnail is set to a nonzero id, or deleted for zero, only when the key is set |
| RestApi.ProductStore.SaveCategories | inc/rest-api.php:328-330 | the terms are replaced only when `categories` is set and is an array |
| RestApi.ProductStore.DeleteProduct | inc/rest-api.php:268-294 | 404 when the id is not a product; 500 `delete_failed` with nothing removed when the store refuses; otherwise the post is gone for good, `{deleted: true, id}` is answered, and a later get is a 404 |
| RestApi.Lifecycle | inc/rest-api.php:206-294 | create `{title: "Phone"}` answers 201 with price 0 and no sale; a price update answers 200 with the new price and the same title; the delete answers `{deleted: true, id}`; a later get answers 404 |
| RestApi.GetCategories | inc/rest-api.php:339-357 | one category per term, in term order, with the term's id, name and slug and the number of products filed under it |
| RestApi.CountAfterReplace | inc/rest-api.php:354 | changing one product changes a category's count by what the old and the new version contribute |
| RestApi.CountAfterDelete | inc/rest-api.php:354 | deleting a product lowers the count of exactly the categories it was filed under |
| RestRoutes.FixedRoutes | inc/rest-api.php:30-90 | the collection and categories paths hold no `?`, differ from each other, and are not item paths |
| RestRoutes.ResolveList | inc/rest-api.php:30-49 | a GET of the collection reaches the list handler with the query's `per_page`, `page` and `search` |
| RestRoutes.ResolveCreate | inc/rest-api.php:50-54 | a POST of the collection reaches the create handler with the body |
| RestRoutes.ResolveItemPath | inc/rest-api.php:58-81 | the prefix followed by digits reaches get (GET), update (POST, PUT, PATCH) or delete (DELETE), with the id read from the digits |
| RestRoutes.NegativeIdHasNoRoute | inc/rest-api.php:58 | a product URL whose id is signed matches no route (`\d+`) |
| RestRoutes.ResolveCategories | inc/rest-api.php:84-90 | a GET of the categories path reaches the categories handler |
| Json.Coalesce | inc/rest-api.php:212-213 | `??` yields the value of a set key and the default for an unset or null key, so never null when its default is not null |
| Json.Absint | inc/rest-api.php:38 | `absint` is the absolute value of `intval` |
| Json.Truncate | inc/rest-api.php:320 | the `(int)` of a float truncates toward zero |
| Json.IntvalAll | inc/rest-api.php:329 | `array_map('intval', …)` keeps length and converts each item |
| Json.IntvalOfWholeNumber | inc/rest-api.php:320 | an integer sent as a JSON number reads back as that integer |
| Json.IntvalAllOfNumberArray | inc/rest-api.php:329 | a list of integers sent as JSON numbers reads back as the same list |
| Decimal.IntToString | src/api/products.ts:21 | the text JavaScript writes for an integer: digits only, led by `-` exactly when negative |
| Json.IntvalCases | inc/rest-api.php:320 | `(int)`: null, false and empty arrays are 0; true and non-empty arrays are 1; a number is truncated toward zero; a digit string, signed or not, is its value |
| Decimal.LeadingIntOfDigits | inc/rest-api.php:234 | a string of digits reads as its decimal value |
| Decimal.LeadingIntOfNegatedDigits | inc/rest-api.php:234 | `-` followed by digits reads as the negated value |
| Decimal.LeadingIntWithoutDigits | inc/rest-api.php:234 | a string with no digit reads as 0 |
| Decimal.LeadingIntOfIntToString | inc/rest-api.php:234 | PHP's `(int)` of the text JavaScript writes for an integer is that integer again |
| Decimal.DigitsValueOfNatToString | src/api/products.ts:28 | reading back the digits written for a natural number gives the number |
| ProductsApi.GetProducts | src/api/products.ts:19-23 | a list request is a plain GET with no body |
| ProductsApi.DefaultListPath | src/api/products.ts:19-21 | without an argument the path is `/jeec/v1/products?per_page=100` |
| ProductsApi.ListRequestRoute | src/api/products.ts:19-23 | the list request reaches the server's list handler with `per_page` the requested size (100 by default), and `page` and `search` absent |
| ProductsApi.GetProduct | src/api/products.ts:26-30 | a plain GET with no body |
| ProductsApi.ItemPath | src/api/products.ts:28 | the item path is the `/jeec/v1/products/` prefix followed by the id |
| ProductsApi.DeleteProduct | src/api/products.ts:54-59 | same path and body as get, and only this one uses DELETE |
| ProductsApi.CreateProduct | src/api/products.ts:33-39 | POSTs the payload unchanged to the collection path |
| ProductsApi.UpdateProduct | src/api/products.ts:42-51 | POSTs the partial payload to the item path |
| ProductsApi.GetCategories | src/api/products.ts:66-70 | a plain GET with no body |
| ProductsApi.SameNamespace | src/api/products.ts:12 | the client's namespace and paths are the server's routes |
| ProductsApi.ItemRequestsRoute | src/api/products.ts:26-59 | for a nonnegative id, get, update and delete reach the server's get, update and delete handlers for that id, with the encoded body |
| ProductsApi.NegativeIdRequestsHaveNoRoute | src/api/products.ts:26-59 | for a negative id none of the three reaches a route |
| ProductsApi.CreateRequestRoute | src/api/products.ts:33-39 | the create request reaches the create handler with the encoded payload |
| ProductsApi.CategoriesRequestRoute | src/api/products.ts:66-70 | the categories request reaches the categories handler |
| ProductsApi.EncodePayload | src/api/products.ts:33-39 | a full payload is sent with all eight keys |
| ProductsApi.Collect | src/api/products.ts:42-51 | the JSON body holds only keys of entries whose value is defined |
| ProductsApi.EncodePartialLookup | src/api/products.ts:42-51 | a key is in the sent body exactly when the partial payload defines that field, and carries its value |
| ProductsApi.PartialUpdateEffect | src/api/products.ts:42-51 | an update with a partial payload changes exactly the fields it carries (text through the sanitisers) and leaves the rest, with type, status and date unchanged |
| ProductsApi.PartialUpdateText | src/api/products.ts:42-51 | title, description and video: sent values are sanitised in, others kept |
| ProductsApi.PartialUpdatePrices | src/api/products.ts:42-51 | price, sale price and flag: sent values are stored, others kept |
| ProductsApi.PartialUpdateImage | src/api/products.ts:42-51 | the image id sent is stored; without one the old id stays |
| ProductsApi.PartialUpdateCategories | src/api/products.ts:42-51 | the category list sent is stored; without one the old list stays |
| ProductsApi.CreateEffect | src/api/products.ts:33-39 | a created product holds every field of the payload sent (text through the sanitisers) and is published |
| Seqs.Filter | src/hooks/useProducts.ts:43 | the result keeps exactly the elements passing the test and is never longer |
| Seqs.FilterConcat | src/hooks/useProducts.ts:43 | filtering keeps the original order |
| Seqs.FilterIdempotent | src/components/CategorySelector.tsx:28 | filtering twice is filtering once |
| UseProducts.WithoutId | src/hooks/useProducts.ts:43 | the list without `id` holds exactly the entries whose id differs, and none with that id |
| UseProducts.WithoutIdKeepsOrder | src/hooks/useProducts.ts:43 | removal keeps the surviving products in their order |
| UseProducts.WithoutAbsentId | src/hooks/useProducts.ts:43 | removing an id no entry carries changes nothing |
| UseProducts.WithoutIdCount | src/hooks/useProducts.ts:43 | removal shortens the list by exactly the number of entries carrying the id |
| UseProducts.ProductsHook.constructor | src/hooks/useProducts.ts:21-22 | the hook starts with an empty list and loading true |
| UseProducts.ProductsHook.Refresh | src/hooks/useProducts.ts:24-26 | refresh raises loading, keeps the list, and sends the default list request |
| UseProducts.ProductsHook.RefreshSettled | src/hooks/useProducts.ts:26-34 | a fetched list replaces the old one; a failure keeps it and gives "Failed to load products."; loading ends either way |
| UseProducts.ProductsHook.RemoveProduct | src/hooks/useProducts.ts:41-42 | removal sends DELETE for the id's path and changes nothing yet |
| UseProducts.ProductsHook.RemoveProductSettled | src/hooks/useProducts.ts:41-44 | only after the delete resolves does the list drop that id's entries; a failure keeps the list and propagates |
| ProductList.Render | src/components/ProductList.tsx:53-71 | loading shows the spinner alone; otherwise an empty list shows the empty state, a non-empty one the table of the products; the dialog shows exactly when `deletingId` is not null |
| ProductList.ProductListView.constructor | src/components/ProductList.tsx:25-28 | no pending delete, not deleting, and the hook's initial state |
| ProductList.ProductListView.AskDelete | src/components/ProductList.tsx:156-158 | a row's Delete button sets `deletingId` to that product, and the drawn screen shows the confirmation dialog |
| ProductList.ProductListView.CancelDelete | src/components/ProductList.tsx:174 | cancel clears `deletingId`, and the drawn screen shows no dialog |
| ProductList.ProductListView.ConfirmDelete | src/components/ProductList.tsx:30-35 | with no pending id nothing happens; otherwise `isDeleting` rises and the delete of that id is sent |
| ProductList.ProductListView.ConfirmDeleteSettled | src/components/ProductList.tsx:35-48 | success gives "Product deleted." and removes the product; failure gives "Failed to delete product." and keeps the list; `isDeleting` is false and `deletingId` null afterwards; after a success the drawn screen has no dialog, no row with the id, and the empty state exactly when every entry had the id |
| ProductList.ScreenAfterDelete | src/components/ProductList.tsx:30-71 | after a delete no row shows the id, and the empty state shows exactly when every entry carried it |
| CategorySelector.Toggle | src/components/CategorySelector.tsx:23-32 | checking appends the id after the old selection; unchecking removes every occurrence, keeps the others, never lengthens, and leaves no `catId` |
| CategorySelector.Render | src/components/CategorySelector.tsx:34-55 | no categories gives the empty-state text; otherwise one box per category, ticked exactly when its id is selected |
| CategorySelector.ToggleThenChecked | src/components/CategorySelector.tsx:23-51 | after a toggle the box reads as the new state and no other box changes |
| CategorySelector.UncheckKeepsOrder | src/components/CategorySelector.tsx:28 | unchecking keeps the remaining ids in order |
| CategorySelector.UncheckAbsent | src/components/CategorySelector.tsx:28 | unchecking an unselected id changes nothing |
| CategorySelector.UncheckIdempotent | src/components/CategorySelector.tsx:28 | unchecking twice is unchecking once |
| CategorySelector.CheckThenUncheck | src/components/CategorySelector.tsx:23-32 | check then uncheck equals uncheck alone |
| CategorySelector.CheckKeepsDistinct | src/components/CategorySelector.tsx:27 | checking an unselected id keeps the selection free of repeats |
| ProductForm.Trim | src/components/ProductForm.tsx:121 | `trim()` gives the slice of the title from its first non-space character whose end is followed only by white space, and which neither starts nor ends with white space; it is empty exactly when the title is all white space |
| ProductForm.TrimIdempotent | src/components/ProductForm.tsx:132 | trimming a trimmed title changes nothing |
| ProductForm.TrimPadding | src/components/ProductForm.tsx:132 | any white space added before and any added after a title (each side its own) never reaches the payload |
| ProductForm.PriceText | src/components/ProductForm.tsx:85-86 | a loaded price of 0 shows as an empty box |
| ProductForm.PriceValue | src/components/ProductForm.tsx:134-135 | an empty price box is sent as 0; other text is parsed |
| ProductForm.Loaded | src/components/ProductForm.tsx:82-92 | a loaded product fills every field, with the prices as text |
| ProductForm.Payload | src/components/ProductForm.tsx:131-140 | the payload has the trimmed title, the parsed prices and the other fields as they are |
| ProductForm.ResubmitLoaded | src/components/ProductForm.tsx:82-140 | loading a product and submitting it untouched sends its own values back (title trimmed), 0 prices included, whenever `parse` reads back the text `show` writes for its two nonzero prices |
| ProductForm.SaveRequest | src/components/ProductForm.tsx:142-144 | a truthy id gives an update POSTed to its item path with the payload as partial; otherwise a create POSTed to the collection |
| ProductForm.SavedMessage | src/components/ProductForm.tsx:148-152 | "Product updated successfully." when editing, else "Product created successfully." |
| ProductForm.SaveRequestRoute | src/components/ProductForm.tsx:142-144 | the save reaches the server's update handler for the edited id, or its create handler |
| ProductForm.SaveEditOverwrites | src/components/ProductForm.tsx:131-144 | saving an edited product overwrites every field the form edits with the payload's values |
| ProductForm.SentTitleTrimmed | src/components/ProductForm.tsx:121-132 | a sent title is non-empty and has no surrounding white space |
| ProductForm.Form.constructor | src/components/ProductForm.tsx:56-68 | the fields start empty, `loading` is `!!productId`, and `saving` is false |
| ProductForm.Form.Load | src/components/ProductForm.tsx:77-81 | with no truthy id nothing happens; otherwise loading rises and the product is fetched |
| ProductForm.Form.LoadSettled | src/components/ProductForm.tsx:82-99 | a loaded product fills the fields; a failure keeps them and gives "Failed to load product."; loading ends |
| ProductForm.Form.SelectImage | src/components/ProductForm.tsx:106-109 | the picked image's id and URL replace the current ones |
| ProductForm.Form.RemoveImage | src/components/ProductForm.tsx:111-114 | the image becomes id 0 with an empty URL |
| ProductForm.Form.ToggleCategory | src/components/ProductForm.tsx:266-269 | the selector's change replaces the selected categories with the toggled list |
| ProductForm.Form.Submit | src/components/ProductForm.tsx:120-144 | a title that trims to nothing gives "Title is required." and sends nothing; otherwise saving rises and the update/create request with the payload is sent |
| ProductForm.Form.SubmitSettled | src/components/ProductForm.tsx:146-160 | success hands the mode's message to `onSaved`; failure gives "Failed to save product." and no `onSaved`; saving ends |
| App.PageOf | src/App.tsx:55-78 | the list screen shows the table, add shows an empty form, edit shows the form for the edited id |
| App.FormModeOfPage | src/App.tsx:63-78 | the form edits, and says "updated", exactly on the edit screen with a nonzero id |
| App.AppRouter.constructor | src/App.tsx:15-17 | the app starts on the list with no edited id and no notice |
| App.AppRouter.NavigateToList | src/App.tsx:20-23 | list screen with a null id; the notice is kept; the app draws the old notice above the list |
| App.AppRouter.NavigateToAdd | src/App.tsx:25-28 | add screen with a null id; the app draws the form with no product id |
| App.AppRouter.NavigateToEdit | src/App.tsx:30-33 | edit screen with the given id; the app draws the form for that id |
| App.AppRouter.HandleSaved | src/App.tsx:35-41 | a success notice with the message, then the list screen with a null id; the app draws that notice above the list |
| App.AppRouter.SetNotice | src/App.tsx:59-67 | a child's notice replaces the current one; the screen, the drawn page and the id-on-edit-screen invariant stay |
| App.AppRouter.DismissNotice | src/App.tsx:45-49 | dismissing sets the notice to null and changes nothing else; the drawn page and the invariant stay |

## Left out

- RestApi.Matching orders newest first by descending id, not by `post_date`. Ids are handed out in increasing order, so the two orders agree except for posts whose dates were edited or are equal.
- RestApi.ProductStore.SaveFeaturedImage takes any nonzero id, as `(int)` reads it, as the new thumbnail. `set_post_thumbnail` first applies `absint` (so -5 stores 5), keeps the old thumbnail when the id is not a post, and deletes the thumbnail for an attachment that is not an image; these WordPress internals are not modelled. So these lemmas hold of the model's store and not of every WordPress store:
  - RestApi.FeaturedImageRules: "a nonzero id sets the image" holds for the id of an existing image attachment;
  - ProductsApi.PartialUpdateImage: the image id sent is stored under the same condition;
  - ProductsApi.CreateEffect: the same condition for the image field;
  - ProductForm.SaveEditOverwrites: the same condition for the image field.
- RestApi.GetCategories counts every product filed under a term. It does not model `get_terms`' own ordering or its error path (which answers `[]`).
- RestApi.ProductStore.DeleteProduct takes the store's success as a parameter. Why `wp_delete_post` fails is WordPress-internal.
- The `id` of an item route comes from the URL. WordPress's `get_param` precedence, where a body or query `id` overrides the URL's, is not modelled.
- `apiFetch`'s middlewares are not modelled: they prefix the site's REST root, append `_locale=user`, and may send PUT, PATCH and DELETE as POST with an `X-HTTP-Method-Override` header. WordPress honours the override, so the route reached and its method are the ones the model resolves.
- Route matching is exact and case-sensitive. Percent-decoding of URLs and query values is not modelled.
- Prices are reals. Floating-point rounding, `toFixed` and the exact text of `String(number)` and `parseFloat` are left to the `show`/`parse` parameters. NaN is not representable: `parse` returns a real, so a `parseFloat` that yields NaN is not modelled. ProductForm.ResubmitLoaded holds for a `show`/`parse` pair that reads back the product's own two nonzero prices; which real pairs do that is not modelled.
- Json.Intval reads a string by its leading integer digits. PHP 7.1 and later read a string in float form first, so `(int)"1e3"` is 1000 and `(int)"1.5e1"` is 15, where the model gives 1. Strings of that form sent as `featured_image_id`, as `categories` entries, or as `per_page`/`page` are read differently; the client sends ids as JSON numbers and page sizes as digit text, which the model reads correctly.
- Decimal.LeadingInt has the same limit: a decimal point or an exponent after the digits is not read.
- RestApi.ProductStore.SaveCategories stores the list of ids as sent. `wp_set_object_terms` skips integers that are not terms of the taxonomy and stores each term once, and `wp_get_post_terms` returns the ids in term-name order. The model's store keeps the list verbatim, so these lemmas hold of the model's store and not of every WordPress store:
  - RestApi.CategoriesReplacedOnlyByArray: the list read back equals the `intval`s sent only when they are distinct existing term ids already in name order;
  - ProductsApi.PartialUpdateCategories: the same limit;
  - ProductsApi.CreateEffect: the same limit for the categories field;
  - ProductForm.SaveEditOverwrites: the same limit for the categories field.
- PHP integer overflow and JavaScript number precision for ids are not modelled; ids are unbounded integers.
- Concurrency: two refreshes or saves in flight at once are not modelled as interleaved. Each settle event applies to the state current when it happens, which is what the source's setters do.
- The individual text setters of the form (`setTitle`, `setDescription`, `setPrice`, `setSalePrice`, `setIsOnSale`, `setYoutubeVideo`) are plain assignments of a field. The model does not list them as separate methods.
- Rendering details are not modelled: markup, styles, the spinner inside the form, disabled buttons, translations.
- Out of scope:
  - the `useCategories` hook;
  - the image picker and the delete dialog components;
  - registration and boot code.
- Calls into WordPress and the browser are parameters:
  - the sanitisers;
  - the thumbnail lookup;
  - search matching;
  - the posts-per-page option;
  - the clock.

=== FILE: app.dfy ===
/** The root component (src/App.tsx): which screen shows, which product is edited, and the notice. */
module App {
  import opened Wrappers
  import opened Types
  import ProductForm

  /** The body the app renders below the notice. */
  datatype Page = ListPage | FormPage(productId: Option<int>)

  /** The screen and the edited id as rendered: the list, the empty form, or the form for `editingId`. */
  function PageOf(screen: Screen, editingId: Option<int>): (pg: Page)
    ensures screen == ListScreen <==> pg == ListPage
    ensures screen == AddScreen ==> pg == FormPage(None)
    ensures screen == EditScreen ==> pg == FormPage(editingId)
  {
    match screen
    case ListScreen => ListPage
    case AddScreen => FormPage(None)
    case EditScreen => FormPage(editingId)
  }

  class AppRouter {
    var screen: Screen
    var editingId: Option<int>
    var notice: Option<Notice>

    /** The navigation helpers keep an id exactly on the edit screen. */
    ghost predicate Valid()
      reads this
    {
      editingId.Some? <==> screen == EditScreen
    }

    constructor()
      ensures Valid()
      ensures screen == ListScreen && editingId == None && notice == None
    {
      screen := ListScreen;
      editingId := None;
      notice := None;
    }

    /** What the app renders: the notice, if any, above the page. */
    function View(): (Option<Notice>, Page)
      reads this
    {
      (notice, PageOf(screen, editingId))
    }

    /** `navigateToList`: back to the table; the notice stays. */
    method NavigateToList()
      modifies this
      ensures Valid()
      ensures screen == ListScreen && editingId == None && notice == old(notice)
      ensures View() == (old(notice), ListPage)
    {
      screen := ListScreen;
      editingId := None;
    }

    /** `navigateToAdd`: the empty form. */
    method NavigateToAdd()
      modifies this
      ensures Valid()
      ensures screen == AddScreen && editingId == None && notice == old(notice)
      ensures View() == (old(notice), FormPage(None))
    {
      screen := AddScreen;
      editingId := None;
    }

    /** `navigateToEdit(id)`: the form for product `id`. */
    method NavigateToEdit(id: int)
      modifies this
      ensures Valid()
      ensures screen == EditScreen && editingId == Some(id) && notice == old(notice)
      ensures View() == (old(notice), FormPage(Some(id)))
    {
      screen := EditScreen;
      editingId := Some(id);
    }

    /** `handleSaved(message)`: a success notice with the form's message, then the list. */
    method HandleSaved(message: string)
      modifies this
      ensures Valid()
      ensures notice == Some(Notice(Success, message))
      ensures screen == ListScreen && editingId == None
      ensures View() == (Some(Notice(Success, message)), ListPage)
    {
      notice := Some(Notice(Success, message));
      NavigateToList();
    }

    /** `setNotice`, as the list and the form call it. */
    method SetNotice(n: Notice)
      modifies this
      ensures notice == Some(n) && screen == old(screen) && editingId == old(editingId)
      ensures Valid() <==> old(Valid())
      ensures View() == (Some(n), old(View()).1)
    {
      notice := Some(n);
    }

    /** The notice's dismiss button: the notice goes, nothing else changes. */
    method DismissNotice()
      modifies this
      ensures notice == None && screen == old(screen) && editingId == old(editingId)
      ensures Valid() <==> old(Valid())
      ensures View() == (None, old(View()).1)
    {
      notice := None;
    }
  }

  /**
   * The form a page shows edits (and its save says "updated") exactly on the edit
   * screen with a nonzero id; the add screen's form creates (and says "created").
   */
  lemma FormModeOfPage(screen: Screen, editingId: Option<int>)
    requires editingId.Some? <==> screen == EditScreen
    ensures var pg := PageOf(screen, editingId);
      pg.FormPage? ==>
        (ProductForm.IsEditing(pg.productId) <==> screen == EditScreen && editingId.value != 0) &&
        (ProductForm.SavedMessage(pg.productId) ==
           if screen == EditScreen && editingId.value != 0 then ProductForm.UPDATED else ProductForm.CREATED)
  {
  }
}

=== FILE: category_selector.dfy ===
/** The category checkbox list of the product form (src/components/CategorySelector.tsx). */
module CategorySelector {
  import opened Types
  import Seqs

  /** The test `selected.filter` keeps: every id other than `catId`. */
  function Other(catId: int): int -> bool {
    id => id != catId
  }

  /**
   * The selection the checkbox of `catId` reports when it turns `checked`:
   * checking appends the id at the end, unchecking drops every occurrence of it.
   */
  function Toggle(selected: seq<int>, catId: int, checked: bool): (r: seq<int>)
    ensures checked ==> |r| == |selected| + 1 && r[..|selected|] == selected && r[|selected|] == catId
    ensures !checked ==> |r| <= |selected| && catId !in r
    ensures !checked ==> forall id :: id in r <==> id in selected && id != catId
  {
    if checked then selected + [catId]
    else
      var r := Seqs.Filter(selected, Other(catId));
      assert forall id :: id in selected && id != catId ==> id in r by {
        forall id | id in selected && id != catId ensures id in r {
          var i :| 0 <= i < |selected| && selected[i] == id;
        }
      }
      r
  }

  /** Whether the checkbox of `catId` is drawn ticked. */
  function IsChecked(selected: seq<int>, catId: int): bool {
    catId in selected
  }

  /** What the selector draws: the empty-state paragraph, or one checkbox per category. */
  datatype SelectorView =
    | NoCategories
    | Checkboxes(boxes: seq<Checkbox>)

  datatype Checkbox = Checkbox(catId: int, name: string, checked: bool)

  function Render(categories: seq<Category>, selected: seq<int>): (v: SelectorView)
    ensures v.NoCategories? <==> |categories| == 0
    ensures v.Checkboxes? ==> |v.boxes| == |categories|
    ensures v.Checkboxes? ==> forall i :: 0 <= i < |categories| ==>
      v.boxes[i].catId == categories[i].id && v.boxes[i].name == categories[i].name &&
      (v.boxes[i].checked <==> categories[i].id in selected)
  {
    if |categories| == 0 then NoCategories
    else Checkboxes(seq(|categories|, i requires 0 <= i < |categories| =>
      Checkbox(categories[i].id, categories[i].name, IsChecked(selected, categories[i].id))))
  }

  /** Ticking a box leaves it ticked; unticking leaves it unticked; no other box changes. */
  lemma ToggleThenChecked(selected: seq<int>, catId: int, checked: bool, other: int)
    requires other != catId
    ensures IsChecked(Toggle(selected, catId, checked), catId) == checked
    ensures IsChecked(Toggle(selected, catId, checked), other) == IsChecked(selected, other)
  {
    if checked {
      var r := Toggle(selected, catId, checked);
      assert r == selected + [catId];
    }
  }

  /** Unticking keeps the remaining ids in the order they were selected. */
  lemma UncheckKeepsOrder(a: seq<int>, b: seq<int>, catId: int)
    ensures Toggle(a + b, catId, false) == Toggle(a, catId, false) + Toggle(b, catId, false)
  {
    Seqs.FilterConcat(a, b, Other(catId));
  }

  /** Unticking a box whose id is not selected leaves the selection as it was. */
  lemma UncheckAbsent(selected: seq<int>, catId: int)
    requires catId !in selected
    ensures Toggle(selected, catId, false) == selected
  {
    Seqs.FilterKeepsAll(selected, Other(catId));
  }

  /** Unticking twice is unticking once. */
  lemma UncheckIdempotent(selected: seq<int>, catId: int)
    ensures Toggle(Toggle(selected, catId, false), catId, false) == Toggle(selected, catId, false)
  {
    UncheckAbsent(Toggle(selected, catId, false), catId);
  }

  /** Ticking then unticking a box ends with the selection unticking alone gives. */
  lemma CheckThenUncheck(selected: seq<int>, catId: int)
    ensures Toggle(Toggle(selected, catId, true), catId, false) == Toggle(selected, catId, false)
  {
    UncheckKeepsOrder(selected, [catId], catId);
    assert Toggle([catId], catId, false) == [] by {
      assert Seqs.Filter([catId], Other(catId)) == [] + Seqs.Filter([catId][1..], Other(catId));
    }
  }

  /** A selection without duplicates, ticked at an unselected id, stays without duplicates. */
  lemma CheckKeepsDistinct(selected: seq<int>, catId: int)
    requires forall i, j :: 0 <= i < j < |selected| ==> selected[i] != selected[j]
    requires !IsChecked(selected, catId)
    ensures var r := Toggle(selected, catId, true);
      forall i, j :: 0 <= i < j < |r| ==> r[i] != r[j]
  {
  }
}

=== FILE: decimal.dfy ===
/**
 * Decimal text of integers, in the two directions the product routes use:
 * JavaScript renders an integer into a URL (`${ id }`), and PHP reads it back
 * with its string-to-integer conversion (`(int)`, `intval`, `absint`).
 */
module Decimal {

  predicate IsDigit(c: char) {
    '0' <= c <= '9'
  }

  predicate AllDigits(s: string) {
    forall i :: 0 <= i < |s| ==> IsDigit(s[i])
  }

  function DigitChar(d: nat): (c: char)
    requires d < 10
    ensures IsDigit(c)
  {
    ('0' as int + d) as char
  }

  function DigitValue(c: char): (d: nat)
    requires IsDigit(c)
    ensures d < 10
  {
    c as int - '0' as int
  }

  /** How JavaScript writes a non-negative integer: decimal digits, no leading zero. */
  function NatToString(n: nat): (s: string)
    ensures |s| > 0 && AllDigits(s)
    ensures n < 10 <==> |s| == 1
    decreases n
  {
    if n < 10 then [DigitChar(n)] else NatToString(n / 10) + [DigitChar(n % 10)]
  }

  /** How JavaScript writes an integer: a minus sign before the digits of a negative one. */
  function IntToString(i: int): (s: string)
    ensures |s| > 0
    ensures i >= 0 <==> AllDigits(s)
    ensures i < 0 <==> s[0] == '-'
    ensures forall k :: 0 <= k < |s| ==> IsDigit(s[k]) || s[k] == '-'
  {
    if i < 0 then
      var s := "-" + NatToString(-i);
      assert !IsDigit(s[0]);
      s
    else NatToString(i)
  }

  /** The number a string of digits denotes. */
  function DigitsValue(s: string): nat
    requires AllDigits(s)
  {
    if s == [] then 0 else DigitsValue(s[..|s| - 1]) * 10 + DigitValue(s[|s| - 1])
  }

  /** The longest prefix of `s` made of digits. */
  function TakeDigits(s: string): (d: string)
    ensures |d| <= |s| && d == s[..|d|] && AllDigits(d)
    ensures |d| < |s| ==> !IsDigit(s[|d|])
  {
    if s == [] || !IsDigit(s[0]) then [] else [s[0]] + TakeDigits(s[1..])
  }

  /** The white space PHP skips in front of a numeric string. */
  predicate IsPhpSpace(c: char) {
    c == ' ' || c == '\t' || c == '\n' || c == '\r' || c == '\U{000B}' || c == '\U{000C}'
  }

  function SkipPhpSpace(s: string): (t: string)
    ensures |t| <= |s| && t == s[|s| - |t|..]
    ensures t != [] ==> !IsPhpSpace(t[0])
  {
    if s != [] && IsPhpSpace(s[0]) then SkipPhpSpace(s[1..]) else s
  }

  /**
   * PHP's conversion of an integer-form string to an integer: leading white
   * space, an optional sign and the longest run of digits, and 0 for a string
   * with no leading digits. A string in float form (a decimal point or an
   * exponent after the digits, as in "1e3") is read here by its integer digits
   * only; PHP reads it as a float first.
   */
  function LeadingInt(s: string): int {
    var t := SkipPhpSpace(s);
    if t != [] && t[0] == '-' then 0 - DigitsValue(TakeDigits(t[1..])) as int
    else if t != [] && t[0] == '+' then DigitsValue(TakeDigits(t[1..]))
    else DigitsValue(TakeDigits(t))
  }

  /** A digit string reads as its value. */
  lemma {:induction false} LeadingIntOfDigits(s: string)
    requires s != [] && AllDigits(s)
    ensures LeadingInt(s) == DigitsValue(s) as int
  {
    ReadDigits(s);
  }

  /** A `-` followed by digits reads as the negated value of the digits. */
  lemma {:induction false} LeadingIntOfNegatedDigits(s: string)
    requires |s| >= 2 && s[0] == '-' && AllDigits(s[1..])
    ensures LeadingInt(s) == -(DigitsValue(s[1..]) as int)
  {
    assert !IsPhpSpace(s[0]);
    ReadDigits(s[1..]);
  }

  /** A string without a digit reads as 0. */
  lemma {:induction false} LeadingIntWithoutDigits(s: string)
    requires forall i :: 0 <= i < |s| ==> !IsDigit(s[i])
    ensures LeadingInt(s) == 0
  {
    ReadNoDigits(s);
    var t := SkipPhpSpace(s);
    assert DigitsValue([]) == 0;
    if t != [] && (t[0] == '-' || t[0] == '+') {
      assert TakeDigits(t[1..]) == [];
    } else {
      assert TakeDigits(t) == [];
    }
  }

  /** A digit string is read whole, with nothing skipped in front. */
  lemma {:induction false} ReadDigits(s: string)
    requires s != [] && AllDigits(s)
    ensures SkipPhpSpace(s) == s && TakeDigits(s) == s
  {
    assert !IsPhpSpace(s[0]);
    TakeAllDigits(s);
  }

  /** A string with no digits reads no digits, after its sign or not. */
  lemma {:induction false} ReadNoDigits(s: string)
    requires forall i :: 0 <= i < |s| ==> !IsDigit(s[i])
    ensures var t := SkipPhpSpace(s); TakeDigits(t) == [] && (t != [] ==> TakeDigits(t[1..]) == [])
  {
    var t := SkipPhpSpace(s);
    if t != [] {
      assert t[0] == s[|s| - |t|];
      if |t| >= 2 {
        assert t[1..][0] == s[|s| - |t| + 1];
      }
    }
  }

  lemma {:induction false} TakeAllDigits(s: string)
    requires AllDigits(s)
    ensures TakeDigits(s) == s
  {
    if s != [] {
      TakeAllDigits(s[1..]);
    }
  }

  /** Reading back what NatToString wrote gives the number again. */
  lemma {:induction false} DigitsValueOfNatToString(n: nat)
    ensures DigitsValue(NatToString(n)) == n
  {
    if n >= 10 {
      var s := NatToString(n);
      assert s[..|s| - 1] == NatToString(n / 10);
      DigitsValueOfNatToString(n / 10);
    }
  }

  /** PHP's `(int)` of the text JavaScript writes for an integer is that integer. */
  lemma LeadingIntOfIntToString(i: int)
    ensures LeadingInt(IntToString(i)) == i
  {
    var s := IntToString(i);
    assert !IsPhpSpace(s[0]);
    assert SkipPhpSpace(s) == s;
    if i < 0 {
      var d := NatToString(-i);
      assert s == "-" + d && s[1..] == d;
      TakeAllDigits(d);
      DigitsValueOfNatToString(-i);
      assert LeadingInt(s) == 0 - DigitsValue(d) as int;
    } else {
      assert s[0] != '-' && s[0] != '+';
      TakeAllDigits(s);
      DigitsValueOfNatToString(i);
      assert LeadingInt(s) == DigitsValue(s);
    }
  }
}

=== FILE: json.dfy ===
/**
 * A JSON request body as PHP decodes it for a REST handler, and the PHP
 * operations the handlers apply to it: `isset`, `??`, `is_array` and the
 * `(bool)`, `(int)`/`intval` and `floatval` conversions.
 */
module Json {
  import Decimal

  datatype Json =
    | JNull
    | JBool(b: bool)
    | JNum(n: real)
    | JStr(s: string)
    | JArray(items: seq<Json>)
    | JObject(fields: seq<(string, Json)>)   // decoded to an associative array, keys in order

  /** The decoded body: its top-level keys. A missing or non-JSON body decodes to no keys. */
  type Params = map<string, Json>

  /** `isset( $params[ key ] )`: the key is present and its value is not null. */
  predicate IsSet(params: Params, key: string) {
    key in params && params[key] != JNull
  }

  /** `$params[ key ] ?? default`. */
  function Coalesce(params: Params, key: string, default: Json): (r: Json)
    ensures r != JNull || default == JNull
    ensures IsSet(params, key) ==> r == params[key]
    ensures !IsSet(params, key) ==> r == default
  {
    if IsSet(params, key) then params[key] else default
  }

  /** `is_array`: JSON arrays and JSON objects both decode to PHP arrays. */
  predicate IsArray(j: Json) {
    j.JArray? || j.JObject?
  }

  /** The values of a PHP array, in order (what `array_map` walks over). */
  function ArrayValues(j: Json): (vs: seq<Json>)
    requires IsArray(j)
    ensures j.JArray? ==> vs == j.items
    ensures j.JObject? ==> |vs| == |j.fields|
  {
    if j.JArray? then j.items else seq(|j.fields|, i requires 0 <= i < |j.fields| => j.fields[i].1)
  }

  /** PHP's `(bool)` cast. */
  function ToBool(j: Json): bool {
    match j
    case JNull => false
    case JBool(b) => b
    case JNum(n) => n != 0.0
    case JStr(s) => s != "" && s != "0"
    case JArray(items) => items != []
    case JObject(fields) => fields != []
  }

  /** Conversion of a float to an integer: truncation toward zero. */
  function Truncate(r: real): (n: int)
    ensures r >= 0.0 ==> n as real <= r < n as real + 1.0
    ensures r < 0.0 ==> n as real - 1.0 < r <= n as real
  {
    if r >= 0.0 then r.Floor else 0 - (-r).Floor
  }

  /** PHP's `(int)` cast, which is also `intval`. */
  function Intval(j: Json): int {
    match j
    case JNull => 0
    case JBool(b) => if b then 1 else 0
    case JNum(n) => Truncate(n)
    case JStr(s) => Decimal.LeadingInt(s)
    case JArray(items) => if items == [] then 0 else 1
    case JObject(fields) => if fields == [] then 0 else 1
  }

  /** WordPress's `absint`: the absolute value of `intval`. */
  function Absint(j: Json): (n: nat)
    ensures Intval(j) >= 0 ==> n == Intval(j)
    ensures Intval(j) < 0 ==> n == -Intval(j)
  {
    var i := Intval(j);
    if i < 0 then -i else i
  }

  /** PHP's `floatval`; reading a float out of a string is the injected `parseString`. */
  function Floatval(j: Json, parseString: string -> real): real {
    match j
    case JNull => 0.0
    case JBool(b) => if b then 1.0 else 0.0
    case JNum(n) => n
    case JStr(s) => parseString(s)
    case JArray(items) => if items == [] then 0.0 else 1.0
    case JObject(fields) => if fields == [] then 0.0 else 1.0
  }

  /** `array_map( 'intval', $values )`. */
  function IntvalAll(values: seq<Json>): (ids: seq<int>)
    ensures |ids| == |values|
    ensures forall i :: 0 <= i < |values| ==> ids[i] == Intval(values[i])
  {
    seq(|values|, i requires 0 <= i < |values| => Intval(values[i]))
  }

  /**
   * The readings of `(int)`: the falsy values are 0, `true` and non-empty arrays
   * are 1, a number is truncated toward zero, and a string of digits, signed or
   * not, is its value.
   */
  lemma IntvalCases(j: Json)
    ensures j == JNull || j == JBool(false) || j == JArray([]) || j == JObject([]) ==> Intval(j) == 0
    ensures j == JBool(true) || (j.JArray? && j.items != []) || (j.JObject? && j.fields != []) ==> Intval(j) == 1
    ensures j.JNum? && j.n >= 0.0 ==> Intval(j) >= 0 && Intval(j) as real <= j.n < Intval(j) as real + 1.0
    ensures j.JNum? && j.n < 0.0 ==> Intval(j) <= 0 && Intval(j) as real - 1.0 < j.n <= Intval(j) as real
    ensures j.JStr? && j.s != [] && Decimal.AllDigits(j.s) ==> Intval(j) == Decimal.DigitsValue(j.s) as int
    ensures j.JStr? && |j.s| >= 2 && j.s[0] == '-' && Decimal.AllDigits(j.s[1..]) ==>
      Intval(j) == -(Decimal.DigitsValue(j.s[1..]) as int)
  {
    if j.JStr? && j.s != [] && Decimal.AllDigits(j.s) {
      Decimal.LeadingIntOfDigits(j.s);
    }
    if j.JStr? && |j.s| >= 2 && j.s[0] == '-' && Decimal.AllDigits(j.s[1..]) {
      Decimal.LeadingIntOfNegatedDigits(j.s);
    }
  }

  /** An integer written as a JSON number reads back as that integer. */
  lemma IntvalOfWholeNumber(k: int)
    ensures Intval(JNum(k as real)) == k
  {
  }

  /** A list of integers as `JSON.stringify` writes it. */
  function NumberArray(ids: seq<int>): (j: Json)
    ensures j.JArray? && |j.items| == |ids|
    ensures forall i :: 0 <= i < |ids| ==> j.items[i] == JNum(ids[i] as real)
  {
    JArray(seq(|ids|, i requires 0 <= i < |ids| => JNum(ids[i] as real)))
  }

  /** A list of integers written as JSON numbers reads back as the same list. */
  lemma IntvalAllOfNumberArray(ids: seq<int>)
    ensures IntvalAll(NumberArray(ids).items) == ids
  {
  }
}

=== FILE: product_form.dfy ===
/**
 * The add/edit product form (src/components/ProductForm.tsx): its fields, the
 * load of the product being edited, the image callbacks and the submit.
 *
 * `String(number)` and `Number.parseFloat` are parameters (`show`, `parse`):
 * the model does not fix a decimal formatting of reals.
 */
module ProductForm {
  import opened Wrappers
  import opened Json
  import opened Types
  import RestRoutes
  import RestApi
  import ProductsApi
  import CategorySelector

  const LOAD_FAILED := "Failed to load product."
  const TITLE_REQUIRED := "Title is required."
  const UPDATED := "Product updated successfully."
  const CREATED := "Product created successfully."
  const SAVE_FAILED := "Failed to save product."

  /* ---------------- `String.prototype.trim` ---------------- */

  /** The characters `trim` strips: ECMAScript WhiteSpace and LineTerminator. */
  predicate IsJsSpace(c: char) {
    c == '\t' || c == '\n' || c == '\U{000B}' || c == '\U{000C}' || c == '\r' || c == ' ' ||
    c == '\U{00A0}' || c == '\U{1680}' || ('\U{2000}' <= c <= '\U{200A}') ||
    c == '\U{2028}' || c == '\U{2029}' || c == '\U{202F}' || c == '\U{205F}' ||
    c == '\U{3000}' || c == '\U{FEFF}'
  }

  function TrimStart(s: string): (r: string)
    ensures |r| <= |s| && r == s[|s| - |r|..]
    ensures r == [] || !IsJsSpace(r[0])
    ensures forall i :: 0 <= i < |s| - |r| ==> IsJsSpace(s[i])
  {
    if s != [] && IsJsSpace(s[0]) then TrimStart(s[1..]) else s
  }

  function TrimEnd(s: string): (r: string)
    ensures |r| <= |s| && r == s[..|r|]
    ensures r == [] || !IsJsSpace(r[|r| - 1])
    ensures forall i :: |r| <= i < |s| ==> IsJsSpace(s[i])
  {
    if s != [] && IsJsSpace(s[|s| - 1]) then TrimEnd(s[..|s| - 1]) else s
  }

  /** How many leading characters `TrimStart` drops. */
  function LeadingSpace(s: string): nat
    ensures LeadingSpace(s) <= |s|
  {
    |s| - |TrimStart(s)|
  }

  /** `s.trim()`: what is left of `s` once its leading, then its trailing, white space is dropped. */
  function Trim(s: string): (r: string)
    ensures LeadingSpace(s) + |r| <= |s| && r == s[LeadingSpace(s)..][..|r|]
    ensures r == [] || (!IsJsSpace(r[0]) && !IsJsSpace(r[|r| - 1]))
    ensures r == [] <==> forall i :: 0 <= i < |s| ==> IsJsSpace(s[i])
    ensures forall i :: LeadingSpace(s) + |r| <= i < |s| ==> IsJsSpace(s[i])
  {
    AllSpace(s);
    EndKeepsLeadingWord(TrimStart(s));
    TrimEnd(TrimStart(s))
  }

  lemma AllSpace(s: string)
    ensures (forall i :: 0 <= i < |s| ==> IsJsSpace(s[i])) <==> TrimStart(s) == []
  {
    var r := TrimStart(s);
    if r != [] {
      assert r[0] == s[|s| - |r|];
    }
  }

  lemma EndKeepsLeadingWord(a: string)
    requires a == [] || !IsJsSpace(a[0])
    ensures TrimEnd(a) == [] <==> a == []
  {
  }

  /** Trimming a trimmed title changes nothing. */
  lemma TrimIdempotent(s: string)
    ensures Trim(Trim(s)) == Trim(s)
  {
    var t := Trim(s);
    if t != [] {
      assert TrimStart(t) == t;
      assert TrimEnd(t) == t;
    }
  }

  /** Surrounding white space never reaches the payload: a padded title trims to the same title. */
  lemma {:induction false} TrimPadding(s: string, pre: string, post: string)
    requires forall i :: 0 <= i < |pre| ==> IsJsSpace(pre[i])
    requires forall i :: 0 <= i < |post| ==> IsJsSpace(post[i])
    ensures Trim(pre + s + post) == Trim(s)
  {
    TrimSteps(pre + s + post);
    TrimSteps(s);
    StepsPadding(s, pre, post);
  }

  lemma {:induction false} StepsPadding(s: string, pre: string, post: string)
    requires forall i :: 0 <= i < |pre| ==> IsJsSpace(pre[i])
    requires forall i :: 0 <= i < |post| ==> IsJsSpace(post[i])
    ensures TrimEnd(TrimStart(pre + s + post)) == TrimEnd(TrimStart(s))
  {
    var t := s + post;
    assert pre + s + post == pre + t;
    PaddedStart(t, pre);
    if TrimStart(s) != [] {
      StartOfPadded(s, post);
      PaddedEnd(TrimStart(s), post);
    } else {
      assert forall i :: 0 <= i < |t| ==> IsJsSpace(t[i]) by {
        forall i | 0 <= i < |t| ensures IsJsSpace(t[i]) {
          if i < |s| {
            assert t[i] == s[i];
          } else {
            assert t[i] == post[i - |s|];
          }
        }
      }
      AllSpace(t);
    }
  }

  lemma {:induction false} TrimSteps(s: string)
    ensures Trim(s) == TrimEnd(TrimStart(s))
  {
  }

  lemma {:induction false} PaddedStart(s: string, pad: string)
    requires forall i :: 0 <= i < |pad| ==> IsJsSpace(pad[i])
    ensures TrimStart(pad + s) == TrimStart(s)
  {
    if pad != [] {
      assert (pad + s)[1..] == pad[1..] + s;
      PaddedStart(s, pad[1..]);
    } else {
      assert pad + s == s;
    }
  }

  lemma {:induction false} PaddedEnd(s: string, pad: string)
    requires forall i :: 0 <= i < |pad| ==> IsJsSpace(pad[i])
    ensures TrimEnd(s + pad) == TrimEnd(s)
  {
    if pad != [] {
      var last := |pad| - 1;
      assert (s + pad)[..|s + pad| - 1] == s + pad[..last];
      PaddedEnd(s, pad[..last]);
    } else {
      assert s + pad == s;
    }
  }

  lemma {:induction false} StartOfPadded(s: string, pad: string)
    requires TrimStart(s) != []
    ensures TrimStart(s + pad) == TrimStart(s) + pad
  {
    assert (s + pad)[0] == s[0];
    if IsJsSpace(s[0]) {
      assert (s + pad)[1..] == s[1..] + pad;
      StartOfPadded(s[1..], pad);
    }
  }

  /* ---------------- form state ---------------- */

  /** The form's fields; the two prices are the text in their number inputs. */
  datatype FormFields = FormFields(
    title: string,
    description: string,
    price: string,
    salePrice: string,
    isOnSale: bool,
    youtubeVideo: string,
    featuredImageId: int,
    featuredImageUrl: string,
    selectedCats: seq<int>)

  const INITIAL_FIELDS := FormFields("", "", "", "", false, "", 0, "", [])

  /** `!!productId`: a product is being edited when an id is given and it is not 0. */
  predicate IsEditing(productId: Option<int>) {
    productId.Some? && productId.value != 0
  }

  /** A loaded price as its input shows it: 0 (a falsy number) as an empty box. */
  function PriceText(x: real, show: real -> string): (t: string)
    ensures x == 0.0 ==> t == ""
    ensures x != 0.0 ==> t == show(x)
  {
    if x != 0.0 then show(x) else ""
  }

  /** A price box as the payload sends it: an empty box as 0, anything else parsed. */
  function PriceValue(t: string, parse: string -> real): (x: real)
    ensures t == "" ==> x == 0.0
    ensures t != "" ==> x == parse(t)
  {
    if t != "" then parse(t) else 0.0
  }

  /** The fields after the product being edited has loaded. */
  function Loaded(p: Product, show: real -> string): (f: FormFields)
    ensures f.title == p.title && f.description == p.description
    ensures f.isOnSale == p.isOnSale && f.youtubeVideo == p.youtubeVideo
    ensures f.featuredImageId == p.featuredImageId && f.featuredImageUrl == p.featuredImageUrl
    ensures f.selectedCats == p.categories
    ensures f.price == PriceText(p.price, show) && f.salePrice == PriceText(p.salePrice, show)
  {
    FormFields(p.title, p.description, PriceText(p.price, show), PriceText(p.salePrice, show),
               p.isOnSale, p.youtubeVideo, p.featuredImageId, p.featuredImageUrl, p.categories)
  }

  /** The payload a submit sends: the trimmed title, the parsed prices, the other fields as they are. */
  function Payload(f: FormFields, parse: string -> real): (d: ProductPayload)
    ensures d.title == Trim(f.title) && d.description == f.description
    ensures d.price == PriceValue(f.price, parse) && d.salePrice == PriceValue(f.salePrice, parse)
    ensures d.isOnSale == f.isOnSale && d.youtubeVideo == f.youtubeVideo
    ensures d.featuredImageId == f.featuredImageId && d.categories == f.selectedCats
  {
    ProductPayload(Trim(f.title), f.description, PriceValue(f.price, parse), PriceValue(f.salePrice, parse),
                   f.isOnSale, f.youtubeVideo, f.featuredImageId, f.selectedCats)
  }

  /**
   * Loading a product and submitting it untouched sends the product's own values
   * (title trimmed), provided `parse` reads back what `show` writes for each of
   * its nonzero prices and `show` does not write them as an empty string; a price
   * of 0 shown as an empty box comes back as 0.
   */
  lemma ResubmitLoaded(p: Product, show: real -> string, parse: string -> real)
    requires p.price != 0.0 ==> show(p.price) != "" && parse(show(p.price)) == p.price
    requires p.salePrice != 0.0 ==> show(p.salePrice) != "" && parse(show(p.salePrice)) == p.salePrice
    ensures Payload(Loaded(p, show), parse) ==
      ProductPayload(Trim(p.title), p.description, p.price, p.salePrice, p.isOnSale,
                     p.youtubeVideo, p.featuredImageId, p.categories)
  {
  }

  /** The request a valid submit sends: an update of the edited product, else a create. */
  function SaveRequest(productId: Option<int>, payload: ProductPayload): (r: ProductsApi.Request)
    ensures r.httpMethod == Some(RestRoutes.POST)
    ensures IsEditing(productId) ==>
      (r.path == ProductsApi.GetProduct(productId.value).path && r.data == ProductsApi.PartialData(AsPartial(payload)))
    ensures !IsEditing(productId) ==>
      (r.path == RestRoutes.PRODUCTS_ROUTE && r.data == ProductsApi.FullData(payload))
  {
    if IsEditing(productId) then ProductsApi.UpdateProduct(productId.value, AsPartial(payload))
    else ProductsApi.CreateProduct(payload)
  }

  /** The message `onSaved` receives. */
  function SavedMessage(productId: Option<int>): (m: string)
    ensures IsEditing(productId) ==> m == UPDATED
    ensures !IsEditing(productId) ==> m == CREATED
  {
    if IsEditing(productId) then UPDATED else CREATED
  }

  /**
   * The save request reaches the server's update route for an edited product with a
   * nonnegative id, and the create route otherwise.
   */
  lemma SaveRequestRoute(productId: Option<int>, payload: ProductPayload)
    requires IsEditing(productId) ==> productId.value >= 0
    ensures IsEditing(productId) ==>
      (ProductsApi.RouteOf(SaveRequest(productId, payload)) ==
       Some(RestRoutes.UpdateProduct(productId.value, ProductsApi.EncodePartial(AsPartial(payload)))))
    ensures !IsEditing(productId) ==>
      (ProductsApi.RouteOf(SaveRequest(productId, payload)) ==
       Some(RestRoutes.CreateProduct(ProductsApi.EncodePayload(payload))))
  {
    if IsEditing(productId) {
      ProductsApi.ItemRequestsRoute(productId.value, AsPartial(payload));
    } else {
      ProductsApi.CreateRequestRoute(payload);
    }
  }

  /**
   * Saving an edited product overwrites every field the form edits: the stored
   * product takes the payload's values (text through the server's sanitisers).
   */
  lemma SaveEditOverwrites(p: RestApi.Post, payload: ProductPayload, wp: RestApi.WordPress)
    ensures var r := RestApi.ApplyUpdate(p, ProductsApi.EncodePartial(AsPartial(payload)), wp);
      && r.title == wp.sanitizeTextField(JStr(payload.title))
      && r.content == wp.ksesPost(JStr(payload.description))
      && r.price == payload.price && r.salePrice == payload.salePrice && r.isOnSale == payload.isOnSale
      && r.youtubeVideo == wp.escUrlRaw(JStr(payload.youtubeVideo))
      && r.thumbnailId == payload.featuredImageId
      && r.categories == payload.categories
      && r.status == p.status && r.date == p.date
  {
    ProductsApi.PartialUpdateEffect(p, AsPartial(payload), wp);
  }

  /** How a submit starts: refused with a notice, or sent. */
  datatype SubmitStart = Refused(notice: Notice) | Sent(request: ProductsApi.Request)

  /** How a sent save ends: `onSaved(message)`, or an error notice. */
  datatype SaveEnd = Saved(message: string) | SaveFailed(notice: Notice)

  class Form {
    const productId: Option<int>
    var fields: FormFields
    var loading: bool
    var saving: bool

    constructor(productId: Option<int>)
      ensures this.productId == productId && fields == INITIAL_FIELDS
      ensures loading == IsEditing(productId) && !saving
    {
      this.productId := productId;
      fields := INITIAL_FIELDS;
      loading := IsEditing(productId);
      saving := false;
    }

    /** The load effect: when editing, raises `loading` and fetches the product; otherwise does nothing. */
    method Load() returns (req: Option<ProductsApi.Request>)
      modifies this
      ensures req.Some? <==> IsEditing(productId)
      ensures req.Some? ==> loading && req.value == ProductsApi.GetProduct(productId.value)
      ensures req.None? ==> loading == old(loading)
      ensures fields == old(fields) && saving == old(saving)
    {
      if !IsEditing(productId) {
        return None;
      }
      loading := true;
      req := Some(ProductsApi.GetProduct(productId.value));
    }

    /** The load settles: a product fills the fields, a failure leaves them and yields a notice; loading ends. */
    method LoadSettled(outcome: Settled<Product>, show: real -> string) returns (notice: Option<Notice>)
      modifies this
      ensures !loading && saving == old(saving)
      ensures outcome.Resolved? ==> fields == Loaded(outcome.value, show) && notice == None
      ensures outcome.Rejected? ==> fields == old(fields) && notice == Some(Notice(Error, LOAD_FAILED))
    {
      match outcome {
        case Resolved(p) =>
          fields := Loaded(p, show);
          notice := None;
        case Rejected =>
          notice := Some(Notice(Error, LOAD_FAILED));
      }
      loading := false;
    }

    /** The image picker's select: the chosen attachment's id and address. */
    method SelectImage(id: int, url: string)
      modifies this
      ensures fields == old(fields).(featuredImageId := id, featuredImageUrl := url)
      ensures loading == old(loading) && saving == old(saving)
    {
      fields := fields.(featuredImageId := id, featuredImageUrl := url);
    }

    /** The image picker's remove: id 0 and no address, which a save turns into "no featured image". */
    method RemoveImage()
      modifies this
      ensures fields == old(fields).(featuredImageId := 0, featuredImageUrl := "")
      ensures loading == old(loading) && saving == old(saving)
    {
      fields := fields.(featuredImageId := 0, featuredImageUrl := "");
    }

    /** A category checkbox of the form's selector changes. */
    method ToggleCategory(catId: int, checked: bool)
      modifies this
      ensures fields == old(fields).(selectedCats := CategorySelector.Toggle(old(fields).selectedCats, catId, checked))
      ensures loading == old(loading) && saving == old(saving)
    {
      fields := fields.(selectedCats := CategorySelector.Toggle(fields.selectedCats, catId, checked));
    }

    /**
     * The submit button. A title that trims to nothing is refused with a notice and no
     * request; otherwise `saving` rises and the payload goes to update or create.
     */
    method Submit(parse: string -> real) returns (start: SubmitStart)
      modifies this
      ensures start.Refused? <==> Trim(old(fields).title) == ""
      ensures start.Refused? ==> start.notice == Notice(Error, TITLE_REQUIRED) && saving == old(saving)
      ensures start.Sent? ==> saving && start.request == SaveRequest(productId, Payload(old(fields), parse))
      ensures fields == old(fields) && loading == old(loading)
    {
      var f := fields;
      if Trim(f.title) == "" {
        return Refused(Notice(Error, TITLE_REQUIRED));
      }
      var request := SaveRequest(productId, Payload(f, parse));
      saving := true;
      start := Sent(request);
    }

    /** The save settles: success hands the message to `onSaved`, failure yields a notice; saving ends. */
    method SubmitSettled(outcome: Settled<Product>) returns (end: SaveEnd)
      modifies this
      ensures !saving && fields == old(fields) && loading == old(loading)
      ensures outcome.Resolved? ==> end == Saved(SavedMessage(productId))
      ensures outcome.Rejected? ==> end == SaveFailed(Notice(Error, SAVE_FAILED))
    {
      if outcome.Resolved? {
        end := Saved(SavedMessage(productId));
      } else {
        end := SaveFailed(Notice(Error, SAVE_FAILED));
      }
      saving := false;
    }
  }

  /** A sent payload never carries an empty title, and its title has no surrounding white space. */
  lemma SentTitleTrimmed(f: FormFields, parse: string -> real)
    requires Trim(f.title) != ""
    ensures var t := Payload(f, parse).title;
      t != [] && !IsJsSpace(t[0]) && !IsJsSpace(t[|t| - 1]) && Trim(t) == t
  {
    TrimIdempotent(f.title);
  }
}

=== FILE: product_list.dfy ===
/**
 * The product table screen (src/components/ProductList.tsx): what it draws, and the
 * delete confirmation (`deletingId`, `isDeleting`, `handleConfirmDelete`).
 */
module ProductList {
  import opened Wrappers
  import opened Types
  import RestRoutes
  import ProductsApi
  import UseProducts

  const DELETED := "Product deleted."
  const DELETE_FAILED := "Failed to delete product."

  /** What the screen draws: the spinner alone, or the header with the empty state or the table. */
  datatype ListView =
    | Spinner
    | EmptyState(confirmShown: bool)
    | Table(rows: seq<Product>, confirmShown: bool)

  function Render(loading: bool, products: seq<Product>, deletingId: Option<int>): (v: ListView)
    ensures v.Spinner? <==> loading
    ensures v.EmptyState? <==> !loading && |products| == 0
    ensures v.Table? ==> v.rows == products
    ensures !v.Spinner? ==> (v.confirmShown <==> deletingId.Some?)
  {
    if loading then Spinner
    else if |products| == 0 then EmptyState(deletingId.Some?)
    else Table(products, deletingId.Some?)
  }

  class ProductListView {
    const hook: UseProducts.ProductsHook
    var deletingId: Option<int>
    var isDeleting: bool

    constructor()
      ensures fresh(hook) && hook.products == [] && hook.loading
      ensures deletingId == None && !isDeleting
    {
      hook := new UseProducts.ProductsHook();
      deletingId := None;
      isDeleting := false;
    }

    /** The screen as currently drawn. */
    function View(): ListView
      reads this, hook
    {
      Render(hook.loading, hook.products, deletingId)
    }

    /** A row's Delete button: asks for confirmation of that product. */
    method AskDelete(id: int)
      modifies this
      ensures deletingId == Some(id) && isDeleting == old(isDeleting)
      ensures !hook.loading ==> View().confirmShown
    {
      deletingId := Some(id);
    }

    /** The confirmation dialog's cancel: closes the dialog. */
    method CancelDelete()
      modifies this
      ensures deletingId == None && isDeleting == old(isDeleting)
      ensures !hook.loading ==> !View().confirmShown
    {
      deletingId := None;
    }

    /**
     * The dialog's confirm button. With no product pending nothing happens; otherwise
     * the screen marks itself busy and the hook sends the delete of the pending id.
     */
    method ConfirmDelete() returns (req: Option<ProductsApi.Request>)
      modifies this
      ensures req.None? <==> old(deletingId).None?
      ensures req.None? ==> isDeleting == old(isDeleting)
      ensures req.Some? ==> (isDeleting && req.value.httpMethod == Some(RestRoutes.DELETE) &&
                             req.value.path == ProductsApi.GetProduct(old(deletingId).value).path)
      ensures deletingId == old(deletingId) && hook.products == old(hook.products)
    {
      if deletingId == None {
        return None;
      }
      isDeleting := true;
      var r := hook.RemoveProduct(deletingId.value);
      req := Some(r);
    }

    /**
     * The delete of `id` settles: the notice says whether it went through, the list
     * loses the product only if it did, and the dialog closes either way.
     */
    method ConfirmDeleteSettled(id: int, outcome: Settled<DeleteResult>) returns (notice: Notice)
      modifies this, hook
      ensures outcome.Resolved? ==>
        (notice == Notice(Success, DELETED) && hook.products == UseProducts.WithoutId(old(hook.products), id))
      ensures outcome.Rejected? ==>
        (notice == Notice(Error, DELETE_FAILED) && hook.products == old(hook.products))
      ensures !isDeleting && deletingId == None && hook.loading == old(hook.loading)
      ensures outcome.Resolved? && !hook.loading ==>
        var v := View();
        && !v.confirmShown
        && (v.Table? ==> forall i :: 0 <= i < |v.rows| ==> v.rows[i].id != id)
        && (v.EmptyState? <==> UseProducts.Occurrences(old(hook.products), id) == |old(hook.products)|)
    {
      ScreenAfterDelete(hook.products, id);
      var done := hook.RemoveProductSettled(id, outcome);
      if done {
        notice := Notice(Success, DELETED);
      } else {
        notice := Notice(Error, DELETE_FAILED);
      }
      isDeleting := false;
      deletingId := None;
    }
  }

  /**
   * Once a delete of `id` has gone through and the dialog closed, no row shows that id,
   * and the empty state shows exactly when every listed entry carried it.
   */
  lemma {:induction false} ScreenAfterDelete(products: seq<Product>, id: int)
    ensures var v := Render(false, UseProducts.WithoutId(products, id), None);
      (v.Table? ==> !v.confirmShown && forall i :: 0 <= i < |v.rows| ==> v.rows[i].id != id) &&
      (v.EmptyState? <==> UseProducts.Occurrences(products, id) == |products|)
  {
    UseProducts.WithoutIdCount(products, id);
  }
}

=== FILE: products_api.dfy ===
/**
 * The typed request builders of src/api/products.ts. Each builds the options
 * object handed to `apiFetch`; sending it is the HTTP request the REST routes
 * receive, modelled here by the method, the URL and the JSON body they see.
 */
module ProductsApi {
  import opened Wrappers
  import opened Json
  import opened Types
  import Decimal
  import RestRoutes
  import RestApi

  const API_NAMESPACE := "/jeec/v1"

  /** getProducts' default page size. */
  const DEFAULT_PER_PAGE := 100

  datatype RequestData = NoData | FullData(payload: ProductPayload) | PartialData(partial: PartialPayload)

  /** The options given to `apiFetch`: a path, an optional method (GET when absent) and optional data. */
  datatype Request = Request(path: string, httpMethod: Option<RestRoutes.HttpMethod>, data: RequestData)

  /** The path of one product; JavaScript writes the id in decimal, with a minus sign when negative. */
  function ItemPath(id: int): (path: string)
    ensures |path| > |RestRoutes.PRODUCT_ROUTE_PREFIX|
    ensures path[..|RestRoutes.PRODUCT_ROUTE_PREFIX|] == RestRoutes.PRODUCT_ROUTE_PREFIX
  {
    API_NAMESPACE + "/products/" + Decimal.IntToString(id)
  }

  /** getProducts: `perPage` None is the call without an argument. */
  function GetProducts(perPage: Option<int>): (r: Request)
    ensures r.httpMethod.None? && r.data.NoData?
  {
    Request(API_NAMESPACE + "/products?per_page=" + Decimal.IntToString(perPage.GetOr(DEFAULT_PER_PAGE)), None, NoData)
  }

  function GetProduct(id: int): (r: Request)
    ensures r.httpMethod.None? && r.data.NoData?
  {
    Request(ItemPath(id), None, NoData)
  }

  /** createProduct: POST to the collection, the payload passed on unchanged. */
  function CreateProduct(data: ProductPayload): (r: Request)
    ensures r.path == RestRoutes.PRODUCTS_ROUTE
    ensures r.httpMethod == Some(RestRoutes.POST) && r.data == FullData(data)
  {
    Request(API_NAMESPACE + "/products", Some(RestRoutes.POST), FullData(data))
  }

  /** updateProduct: POST to the product's own path, the partial payload passed on unchanged. */
  function UpdateProduct(id: int, data: PartialPayload): (r: Request)
    ensures r.path == GetProduct(id).path
    ensures r.httpMethod == Some(RestRoutes.POST) && r.data == PartialData(data)
  {
    Request(ItemPath(id), Some(RestRoutes.POST), PartialData(data))
  }

  /** deleteProduct: the same path as getProduct; only the method differs. */
  function DeleteProduct(id: int): (r: Request)
    ensures r.path == GetProduct(id).path && r.data == GetProduct(id).data
    ensures r.httpMethod == Some(RestRoutes.DELETE) && r.httpMethod != GetProduct(id).httpMethod
  {
    Request(ItemPath(id), Some(RestRoutes.DELETE), NoData)
  }

  function GetCategories(): (r: Request)
    ensures r.httpMethod.None? && r.data.NoData?
  {
    Request(API_NAMESPACE + "/product-categories", None, NoData)
  }

  /* ---------------------------------------------------------------
   * What the server receives
   * ------------------------------------------------------------- */

  function MethodOf(r: Request): RestRoutes.HttpMethod {
    r.httpMethod.GetOr(RestRoutes.GET)
  }

  /** The JSON body of a full payload, as the REST server decodes it. */
  function EncodePayload(p: ProductPayload): (body: Params)
    ensures body.Keys == {"title", "description", "price", "sale_price", "is_on_sale", "youtube_video", "featured_image_id", "categories"}
  {
    map["title" := JStr(p.title),
        "description" := JStr(p.description),
        "price" := JNum(p.price),
        "sale_price" := JNum(p.salePrice),
        "is_on_sale" := JBool(p.isOnSale),
        "youtube_video" := JStr(p.youtubeVideo),
        "featured_image_id" := JNum(p.featuredImageId as real),
        "categories" := NumberArray(p.categories)]
  }

  /** An object's entries as `JSON.stringify` keeps them: a key whose value is undefined (None) is dropped. */
  function Collect(entries: seq<(string, Option<Json>)>): (body: Params)
    ensures forall k :: k in body ==> exists i :: 0 <= i < |entries| && entries[i].0 == k && entries[i].1.Some?
  {
    if entries == [] then map[]
    else
      var rest := Collect(entries[1..]);
      match entries[0].1
      case None => rest
      case Some(j) => rest[entries[0].0 := j]
  }

  function TextValue(s: Option<string>): Option<Json> {
    if s.Some? then Some(JStr(s.value)) else None
  }

  function NumberValue(x: Option<real>): Option<Json> {
    if x.Some? then Some(JNum(x.value)) else None
  }

  function BoolValue(b: Option<bool>): Option<Json> {
    if b.Some? then Some(JBool(b.value)) else None
  }

  function IdValue(k: Option<int>): Option<Json> {
    if k.Some? then Some(JNum(k.value as real)) else None
  }

  function IdsValue(ids: Option<seq<int>>): Option<Json> {
    if ids.Some? then Some(NumberArray(ids.value)) else None
  }

  /** The partial body's entries, in the order the payload type declares them. */
  function PartialEntries(q: PartialPayload): seq<(string, Option<Json>)> {
    [("title", TextValue(q.title)),
     ("description", TextValue(q.description)),
     ("price", NumberValue(q.price)),
     ("sale_price", NumberValue(q.salePrice)),
     ("is_on_sale", BoolValue(q.isOnSale)),
     ("youtube_video", TextValue(q.youtubeVideo)),
     ("featured_image_id", IdValue(q.featuredImageId)),
     ("categories", IdsValue(q.categories))]
  }

  /** The JSON body of a partial payload: only the keys it sets. */
  function EncodePartial(q: PartialPayload): Params {
    Collect(PartialEntries(q))
  }

  function BodyOf(r: Request): Params {
    match r.data
    case NoData => map[]
    case FullData(p) => EncodePayload(p)
    case PartialData(q) => EncodePartial(q)
  }

  /** The route a request reaches on the server, or None. */
  function RouteOf(r: Request): Option<RestRoutes.Route> {
    RestRoutes.Resolve(MethodOf(r), r.path, BodyOf(r))
  }

  /* ---------------------------------------------------------------
   * Lemmas: every builder reaches the handler it is meant for
   * ------------------------------------------------------------- */

  /** Without an argument getProducts asks for 100 products per page. */
  lemma DefaultListPath()
    ensures GetProducts(None).path == "/jeec/v1/products?per_page=100"
  {
    assert Decimal.NatToString(1) == "1";
    assert Decimal.NatToString(10) == "10";
    assert Decimal.NatToString(100) == "100";
  }

  lemma IntTextIsPlainValue(n: int)
    ensures forall i :: 0 <= i < |Decimal.IntToString(n)| ==>
      Decimal.IntToString(n)[i] != '&' && Decimal.IntToString(n)[i] != '?'
  {
  }

  /** The client's namespace is the one the routes are registered under. */
  lemma SameNamespace()
    ensures API_NAMESPACE == RestRoutes.NAMESPACE
    ensures API_NAMESPACE + "/products" == RestRoutes.PRODUCTS_ROUTE
    ensures API_NAMESPACE + "/products/" == RestRoutes.PRODUCT_ROUTE_PREFIX
    ensures API_NAMESPACE + "/product-categories" == RestRoutes.CATEGORIES_ROUTE
  {
    assert API_NAMESPACE + "/products/" == (API_NAMESPACE + "/products") + "/";
  }

  /** `per_page` holds neither `=` nor `&`. */
  lemma PerPageKeyIsPlain()
    ensures forall i :: 0 <= i < |"per_page"| ==> "per_page"[i] != '=' && "per_page"[i] != '&'
  {
    var key := "per_page";
    assert key == ['p', 'e', 'r', '_', 'p', 'a', 'g', 'e'];
    forall i | 0 <= i < |key|
      ensures key[i] != '=' && key[i] != '&'
    {
      assert key[i] in {'p', 'e', 'r', '_', 'a', 'g'};
    }
  }

  lemma ListPathSplits(text: string)
    ensures API_NAMESPACE + "/products?per_page=" + text == RestRoutes.PRODUCTS_ROUTE + "?" + ("per_page" + "=" + text)
  {
    SameNamespace();
    assert "/products?per_page=" == "/products" + "?" + "per_page" + "=";
  }

  /** getProducts reaches the list route with `per_page` holding the page size, read back as its absolute value. */
  lemma ListRequestRoute(perPage: Option<int>)
    ensures var n := perPage.GetOr(DEFAULT_PER_PAGE);
            var text := Decimal.IntToString(n);
            && RouteOf(GetProducts(perPage))
               == Some(RestRoutes.ListProducts(RestRoutes.ListArgs(Some(JStr(text)), None, None)))
            && Absint(JStr(text)) == (if n < 0 then -n else n)
  {
    var n := perPage.GetOr(DEFAULT_PER_PAGE);
    ListPathRoutes(n);
    Decimal.LeadingIntOfIntToString(n);
  }

  /** The list path for a page size `n` reaches the list route with `per_page` alone. */
  lemma ListPathRoutes(n: int)
    ensures RouteOf(Request(API_NAMESPACE + "/products?per_page=" + Decimal.IntToString(n), None, NoData))
            == Some(RestRoutes.ListProducts(RestRoutes.ListArgs(Some(JStr(Decimal.IntToString(n))), None, None)))
  {
    var text := Decimal.IntToString(n);
    var query := "per_page" + "=" + text;
    ListPathSplits(text);
    RestRoutes.ResolveList(query, map[]);
    IntTextIsPlainValue(n);
    PerPageKeyIsPlain();
    RestRoutes.ParseSingleQuery("per_page", text);
    var args := RestRoutes.ParseQuery(query);
    assert "page" !in args && "search" !in args;
  }

  /** A non-negative id: getProduct, updateProduct and deleteProduct reach the handlers for that same id. */
  lemma ItemRequestsRoute(id: int, data: PartialPayload)
    requires id >= 0
    ensures RouteOf(GetProduct(id)) == Some(RestRoutes.GetProduct(id))
    ensures RouteOf(UpdateProduct(id, data)) == Some(RestRoutes.UpdateProduct(id, EncodePartial(data)))
    ensures RouteOf(DeleteProduct(id)) == Some(RestRoutes.DeleteProduct(id))
  {
    var digits := Decimal.IntToString(id);
    SameNamespace();
    assert ItemPath(id) == RestRoutes.PRODUCT_ROUTE_PREFIX + digits;
    Decimal.LeadingIntOfIntToString(id);
    RestRoutes.ResolveItemPath(RestRoutes.GET, digits, map[]);
    RestRoutes.ResolveItemPath(RestRoutes.POST, digits, EncodePartial(data));
    RestRoutes.ResolveItemPath(RestRoutes.DELETE, digits, map[]);
  }

  /** A negative id is written with a minus sign, which the item route's `\d+` does not match. */
  lemma NegativeIdRequestsHaveNoRoute(id: int, data: PartialPayload)
    requires id < 0
    ensures RouteOf(GetProduct(id)) == None
    ensures RouteOf(UpdateProduct(id, data)) == None
    ensures RouteOf(DeleteProduct(id)) == None
  {
    var digits := Decimal.NatToString(-id);
    SameNamespace();
    assert ItemPath(id) == RestRoutes.PRODUCT_ROUTE_PREFIX + "-" + digits;
    RestRoutes.NegativeIdHasNoRoute(RestRoutes.GET, digits, map[]);
    RestRoutes.NegativeIdHasNoRoute(RestRoutes.POST, digits, EncodePartial(data));
    RestRoutes.NegativeIdHasNoRoute(RestRoutes.DELETE, digits, map[]);
  }

  lemma CreateRequestRoute(data: ProductPayload)
    ensures RouteOf(CreateProduct(data)) == Some(RestRoutes.CreateProduct(EncodePayload(data)))
  {
    SameNamespace();
    RestRoutes.ResolveCreate(EncodePayload(data));
  }

  lemma CategoriesRequestRoute()
    ensures RouteOf(GetCategories()) == Some(RestRoutes.ListCategories)
  {
    SameNamespace();
    RestRoutes.ResolveCategories(map[]);
  }

  /* ---------------------------------------------------------------
   * Lemmas: what the handlers do with the bodies the client sends
   * ------------------------------------------------------------- */

  /** With distinct keys, an entry's key is in the body exactly when its value is defined, and maps to that value. */
  predicate DistinctKeys(entries: seq<(string, Option<Json>)>) {
    forall a, b :: 0 <= a < b < |entries| ==> entries[a].0 != entries[b].0
  }

  lemma {:induction false} CollectLookup(entries: seq<(string, Option<Json>)>, i: nat)
    requires i < |entries|
    requires DistinctKeys(entries)
    ensures entries[i].1.Some? <==> entries[i].0 in Collect(entries)
    ensures entries[i].1.Some? ==> Collect(entries)[entries[i].0] == entries[i].1.value
  {
    if i > 0 {
      CollectLookup(entries[1..], i - 1);
      assert entries[1..][i - 1] == entries[i];
    }
  }

  /** The body keys are pairwise different: by length, or else by their first letter. */
  lemma KeysDistinct(q: PartialPayload)
    ensures DistinctKeys(PartialEntries(q))
  {
    var e := PartialEntries(q);
    assert |e[0].0| == 5 && |e[1].0| == 11 && |e[2].0| == 5 && |e[3].0| == 10;
    assert |e[4].0| == 10 && |e[5].0| == 13 && |e[6].0| == 17 && |e[7].0| == 10;
    assert e[0].0[0] == 't' && e[2].0[0] == 'p';
    assert e[3].0[0] == 's' && e[4].0[0] == 'i' && e[7].0[0] == 'c';
  }

  /** A key is in a partial body exactly when the payload has that field, and holds the field's JSON value. */
  lemma EncodePartialLookup(q: PartialPayload, i: nat)
    requires i < 8
    ensures var e := PartialEntries(q)[i];
      && (e.0 in EncodePartial(q) <==> e.1.Some?)
      && (e.1.Some? ==> EncodePartial(q)[e.0] == e.1.value)
  {
    KeysDistinct(q);
    CollectLookup(PartialEntries(q), i);
  }

  /** The text fields of a partial update: set through the sanitisers when sent, kept otherwise. */
  lemma PartialUpdateText(p: RestApi.Post, q: PartialPayload, wp: RestApi.WordPress)
    ensures var r := RestApi.ApplyUpdate(p, EncodePartial(q), wp);
      && r.title == (if q.title.Some? then wp.sanitizeTextField(JStr(q.title.value)) else p.title)
      && r.content == (if q.description.Some? then wp.ksesPost(JStr(q.description.value)) else p.content)
      && r.youtubeVideo == (if q.youtubeVideo.Some? then wp.escUrlRaw(JStr(q.youtubeVideo.value)) else p.youtubeVideo)
  {
    EncodePartialLookup(q, 0);
    EncodePartialLookup(q, 1);
    EncodePartialLookup(q, 5);
  }

  /** The price fields of a partial update: the numbers and flag sent, or the old ones. */
  lemma PartialUpdatePrices(p: RestApi.Post, q: PartialPayload, wp: RestApi.WordPress)
    ensures var r := RestApi.ApplyUpdate(p, EncodePartial(q), wp);
      && r.price == q.price.GetOr(p.price)
      && r.salePrice == q.salePrice.GetOr(p.salePrice)
      && r.isOnSale == q.isOnSale.GetOr(p.isOnSale)
  {
    EncodePartialLookup(q, 2);
    EncodePartialLookup(q, 3);
    EncodePartialLookup(q, 4);
  }

  /** The featured image of a partial update: the id sent, or the old one. */
  lemma PartialUpdateImage(p: RestApi.Post, q: PartialPayload, wp: RestApi.WordPress)
    ensures RestApi.ApplyUpdate(p, EncodePartial(q), wp).thumbnailId == q.featuredImageId.GetOr(p.thumbnailId)
  {
    EncodePartialLookup(q, 6);
    if q.featuredImageId.Some? {
      IntvalOfWholeNumber(q.featuredImageId.value);
    }
  }

  /** The categories of a partial update: the list sent, or the old one. */
  lemma PartialUpdateCategories(p: RestApi.Post, q: PartialPayload, wp: RestApi.WordPress)
    ensures RestApi.ApplyUpdate(p, EncodePartial(q), wp).categories == q.categories.GetOr(p.categories)
  {
    EncodePartialLookup(q, 7);
    if q.categories.Some? {
      IntvalAllOfNumberArray(q.categories.value);
    }
  }

  /**
   * updateProduct with a partial payload changes exactly the fields the
   * payload carries, each to the value sent (text through the server's
   * sanitisers), and leaves every other field as it was.
   */
  lemma PartialUpdateEffect(p: RestApi.Post, q: PartialPayload, wp: RestApi.WordPress)
    ensures var r := RestApi.ApplyUpdate(p, EncodePartial(q), wp);
      && r.title == (if q.title.Some? then wp.sanitizeTextField(JStr(q.title.value)) else p.title)
      && r.content == (if q.description.Some? then wp.ksesPost(JStr(q.description.value)) else p.content)
      && r.price == q.price.GetOr(p.price)
      && r.salePrice == q.salePrice.GetOr(p.salePrice)
      && r.isOnSale == q.isOnSale.GetOr(p.isOnSale)
      && r.youtubeVideo == (if q.youtubeVideo.Some? then wp.escUrlRaw(JStr(q.youtubeVideo.value)) else p.youtubeVideo)
      && r.thumbnailId == q.featuredImageId.GetOr(p.thumbnailId)
      && r.categories == q.categories.GetOr(p.categories)
      && r.postType == p.postType && r.status == p.status && r.date == p.date
  {
    PartialUpdateText(p, q, wp);
    PartialUpdatePrices(p, q, wp);
    PartialUpdateImage(p, q, wp);
    PartialUpdateCategories(p, q, wp);
  }

  /** createProduct stores every field of the payload it sends (text through the server's sanitisers). */
  lemma CreateEffect(data: ProductPayload, now: string, wp: RestApi.WordPress)
    ensures var r := RestApi.ApplyMeta(RestApi.NewPost(EncodePayload(data), now, wp), EncodePayload(data), wp);
      && r.title == wp.sanitizeTextField(JStr(data.title))
      && r.content == wp.ksesPost(JStr(data.description))
      && r.price == data.price && r.salePrice == data.salePrice && r.isOnSale == data.isOnSale
      && r.youtubeVideo == wp.escUrlRaw(JStr(data.youtubeVideo))
      && r.thumbnailId == data.featuredImageId
      && r.categories == data.categories
      && r.status == RestApi.PUBLISH
  {
    IntvalOfWholeNumber(data.featuredImageId);
    IntvalAllOfNumberArray(data.categories);
  }
}

=== FILE: rest_api.dfy ===
/**
 * The product REST handlers of inc/rest-api.php, run against a store that
 * stands for WordPress: posts with their product meta, thumbnail and
 * category terms, a counter that hands out fresh ids, the category table
 * and whether the caller may edit posts.
 */
module RestApi {
  import opened Wrappers
  import opened Json
  import opened Types
  import RestRoutes

  const PRODUCT_TYPE := "product"
  const PUBLISH := "publish"

  /** The list route's argument defaults. */
  const DEFAULT_PER_PAGE: nat := 20
  const DEFAULT_PAGE: nat := 1

  /**
   * A stored post. The meta fields hold what `get_post_meta` reads back through
   * the casts of jeec_format_product; a post that never had a meta key written
   * reads it as 0, false or the empty string, which is what a new post holds.
   * `thumbnailId` 0 means no featured image.
   */
  datatype Post = Post(
    postType: string,
    title: string,
    content: string,
    status: string,
    date: string,
    price: real,
    salePrice: real,
    isOnSale: bool,
    youtubeVideo: string,
    thumbnailId: int,
    categories: seq<int>)

  /** A term of the product category taxonomy. */
  datatype Term = Term(id: int, name: string, slug: string)

  /**
   * The WordPress functions the handlers call whose definitions are outside
   * this repository: the sanitisers, reading a float out of a string, the
   * thumbnail-sized URL of an attachment (None when there is none), whether a
   * post matches a search phrase, and the site's posts-per-page option.
   */
  datatype WordPress = WordPress(
    sanitizeTextField: Json -> string,
    ksesPost: Json -> string,
    escUrlRaw: Json -> string,
    parseFloat: string -> real,
    thumbnailSrc: int -> Option<string>,
    matchesSearch: (Post, string) -> bool,
    postsPerPageOption: nat)

  datatype WpError = WpError(code: string, message: string, status: int)

  const FORBIDDEN := WpError("rest_forbidden", "Sorry, you are not allowed to access this endpoint.", 403)
  const NOT_FOUND := WpError("not_found", "Product not found.", 404)
  const DELETE_FAILED := WpError("delete_failed", "Failed to delete product.", 500)

  datatype Body =
    | ProductBody(product: Product)
    | ProductPage(products: seq<Product>, total: nat, totalPages: nat)   // totals go out as X-WP-Total, X-WP-TotalPages
    | Deleted(result: DeleteResult)
    | CategoryList(categories: seq<Category>)

  datatype Reply = Ok(status: int, body: Body) | Fail(error: WpError)

  /** What the store and the clock decide during a request: an insert failure, whether a delete succeeds, the time. */
  datatype StoreEffects = StoreEffects(insertError: Option<WpError>, deleteSucceeds: bool, now: string)

  /* ---------------------------------------------------------------
   * Permission and serialisation
   * ------------------------------------------------------------- */

  /** jeec_rest_permission_check: None lets the request through. */
  function PermissionCheck(canEdit: bool): (denied: Option<WpError>)
    ensures denied.None? <==> canEdit
    ensures denied.Some? ==> denied.value.code == "rest_forbidden" && denied.value.status == 403
  {
    if !canEdit then Some(FORBIDDEN) else None
  }

  /** `get_post( id )` finds a post and its type is `product`. */
  predicate IsProduct(posts: map<int, Post>, id: int) {
    id in posts && posts[id].postType == PRODUCT_TYPE
  }

  /** jeec_format_product: the public shape, with the image URL derived from the thumbnail at read time. */
  function Format(id: int, p: Post, wp: WordPress): (r: Product)
    ensures r.id == id && r.status == p.status && r.date == p.date
    ensures r.featuredImageId == p.thumbnailId && r.categories == p.categories
    ensures r.title == p.title && r.description == p.content
    ensures r.price == p.price && r.salePrice == p.salePrice && r.isOnSale == p.isOnSale
    ensures r.youtubeVideo == p.youtubeVideo
    ensures r.featuredImageId == 0 ==> r.featuredImageUrl == ""
    ensures r.featuredImageId != 0 && wp.thumbnailSrc(r.featuredImageId).Some? ==>
      r.featuredImageUrl == wp.thumbnailSrc(r.featuredImageId).value
    ensures wp.thumbnailSrc(r.featuredImageId).None? ==> r.featuredImageUrl == ""
  {
    var url :=
      if p.thumbnailId != 0 then
        match wp.thumbnailSrc(p.thumbnailId)
        case Some(src) => src
        case None => ""
      else "";
    Product(id, p.title, p.content, p.price, p.salePrice, p.isOnSale, p.youtubeVideo,
            p.thumbnailId, url, p.categories, p.date, p.status)
  }

  /* ---------------------------------------------------------------
   * Single product
   * ------------------------------------------------------------- */

  /** jeec_rest_get_product. */
  function GetProduct(posts: map<int, Post>, id: int, wp: WordPress): (r: Reply)
    ensures r.Fail? <==> !IsProduct(posts, id)
    ensures r.Fail? ==> r.error == NOT_FOUND
    ensures r.Ok? ==> r.status == 200 && r.body.ProductBody? && r.body.product.id == id
    ensures r.Ok? ==> r.body == ProductBody(Format(id, posts[id], wp))
  {
    if !IsProduct(posts, id) then Fail(NOT_FOUND) else Ok(200, ProductBody(Format(id, posts[id], wp)))
  }

  /** The post jeec_rest_create_product inserts, before its meta is written. */
  function NewPost(params: Params, now: string, wp: WordPress): Post {
    Post(PRODUCT_TYPE,
         wp.sanitizeTextField(Coalesce(params, "title", JStr(""))),
         wp.ksesPost(Coalesce(params, "description", JStr(""))),
         PUBLISH, now, 0.0, 0.0, false, "", 0, [])
  }

  /** The `wp_update_post` part of jeec_rest_update_product: title and content, each only when set. */
  function ApplyPostFields(p: Post, params: Params, wp: WordPress): Post {
    p.(title := if IsSet(params, "title") then wp.sanitizeTextField(params["title"]) else p.title,
       content := if IsSet(params, "description") then wp.ksesPost(params["description"]) else p.content)
  }

  /* jeec_update_product_meta writes the meta keys one after another; each step below is one of those writes. */

  function MetaPrice(p: Post, params: Params, wp: WordPress): Post {
    p.(price := if IsSet(params, "price") then Floatval(params["price"], wp.parseFloat) else p.price)
  }

  function MetaSalePrice(p: Post, params: Params, wp: WordPress): Post {
    p.(salePrice := if IsSet(params, "sale_price") then Floatval(params["sale_price"], wp.parseFloat) else p.salePrice)
  }

  function MetaOnSale(p: Post, params: Params): Post {
    p.(isOnSale := if IsSet(params, "is_on_sale") then ToBool(params["is_on_sale"]) else p.isOnSale)
  }

  function MetaVideo(p: Post, params: Params, wp: WordPress): Post {
    p.(youtubeVideo := if IsSet(params, "youtube_video") then wp.escUrlRaw(params["youtube_video"]) else p.youtubeVideo)
  }

  /** A non-zero featured image id is stored as the thumbnail; zero removes the thumbnail, leaving id 0. */
  function MetaImage(p: Post, params: Params): Post {
    p.(thumbnailId :=
         if !IsSet(params, "featured_image_id") then p.thumbnailId
         else if Intval(params["featured_image_id"]) != 0 then Intval(params["featured_image_id"])
         else 0)
  }

  /** The category list is replaced only by an array (or object) value. */
  function MetaCategories(p: Post, params: Params): Post {
    p.(categories :=
         if IsSet(params, "categories") && IsArray(params["categories"])
         then IntvalAll(ArrayValues(params["categories"]))
         else p.categories)
  }

  /** What jeec_update_product_meta leaves on a post. */
  function ApplyMeta(p: Post, params: Params, wp: WordPress): Post {
    var p1 := MetaPrice(p, params, wp);
    var p2 := MetaSalePrice(p1, params, wp);
    var p3 := MetaOnSale(p2, params);
    var p4 := MetaVideo(p3, params, wp);
    var p5 := MetaImage(p4, params);
    MetaCategories(p5, params)
  }

  /** Everything an update does to a post. */
  function ApplyUpdate(p: Post, params: Params, wp: WordPress): Post {
    ApplyMeta(ApplyPostFields(p, params, wp), params, wp)
  }

  /** The meta writes leave the post itself alone: type, status, date, title and content. */
  lemma MetaKeepsPostFields(p: Post, params: Params, wp: WordPress)
    ensures var q := ApplyMeta(p, params, wp);
      && q.postType == p.postType && q.status == p.status && q.date == p.date
      && q.title == p.title && q.content == p.content
  {
  }

  /** A meta field changes only when its key is set. */
  lemma MetaKeepsUnsetFields(p: Post, params: Params, wp: WordPress)
    ensures var q := ApplyMeta(p, params, wp);
      && (!IsSet(params, "price") ==> q.price == p.price)
      && (!IsSet(params, "sale_price") ==> q.salePrice == p.salePrice)
      && (!IsSet(params, "is_on_sale") ==> q.isOnSale == p.isOnSale)
      && (!IsSet(params, "youtube_video") ==> q.youtubeVideo == p.youtubeVideo)
      && (!IsSet(params, "featured_image_id") ==> q.thumbnailId == p.thumbnailId)
      && (!IsSet(params, "categories") ==> q.categories == p.categories)
  {
  }

  /** An update changes a field only when its key is set in the body; identity, type, status and date never change. */
  lemma UpdateKeepsUnsetFields(p: Post, params: Params, wp: WordPress)
    ensures var q := ApplyUpdate(p, params, wp);
      && q.postType == p.postType && q.status == p.status && q.date == p.date
      && (!IsSet(params, "title") ==> q.title == p.title)
      && (!IsSet(params, "description") ==> q.content == p.content)
      && (!IsSet(params, "price") ==> q.price == p.price)
      && (!IsSet(params, "sale_price") ==> q.salePrice == p.salePrice)
      && (!IsSet(params, "is_on_sale") ==> q.isOnSale == p.isOnSale)
      && (!IsSet(params, "youtube_video") ==> q.youtubeVideo == p.youtubeVideo)
      && (!IsSet(params, "featured_image_id") ==> q.thumbnailId == p.thumbnailId)
      && (!IsSet(params, "categories") ==> q.categories == p.categories)
  {
    MetaKeepsPostFields(ApplyPostFields(p, params, wp), params, wp);
    MetaKeepsUnsetFields(ApplyPostFields(p, params, wp), params, wp);
  }

  /**
   * `featured_image_id`: a non-zero value becomes the thumbnail; zero clears it,
   * so the product reads back with image id 0 and an empty URL; absent or null
   * leaves the image as it was.
   */
  lemma FeaturedImageRules(id: int, p: Post, params: Params, wp: WordPress)
    ensures var r := Format(id, ApplyUpdate(p, params, wp), wp);
      && (IsSet(params, "featured_image_id") && Intval(params["featured_image_id"]) != 0 ==>
            r.featuredImageId == Intval(params["featured_image_id"]))
      && (IsSet(params, "featured_image_id") && Intval(params["featured_image_id"]) == 0 ==>
            r.featuredImageId == 0 && r.featuredImageUrl == "")
      && (!IsSet(params, "featured_image_id") ==>
            r.featuredImageId == p.thumbnailId && r.featuredImageUrl == Format(id, p, wp).featuredImageUrl)
  {
  }

  /** `categories` replaces the whole list when it is an array, and is ignored otherwise. */
  lemma CategoriesReplacedOnlyByArray(p: Post, params: Params, wp: WordPress)
    ensures var q := ApplyUpdate(p, params, wp);
      && (IsSet(params, "categories") && params["categories"].JArray? ==>
            q.categories == IntvalAll(params["categories"].items))
      && (!(IsSet(params, "categories") && IsArray(params["categories"])) ==> q.categories == p.categories)
  {
  }

  /**
   * A created product is published, carries the new id and the creation time,
   * takes the sanitised empty string as title when none is given, and has
   * price 0, sale price 0, no sale, no video, no image and no category unless
   * the body sets them.
   */
  lemma CreatedProduct(id: int, params: Params, now: string, wp: WordPress)
    ensures var r := Format(id, ApplyMeta(NewPost(params, now, wp), params, wp), wp);
      && r.id == id && r.status == "publish" && r.date == now
      && (!IsSet(params, "title") ==> r.title == wp.sanitizeTextField(JStr("")))
      && (!IsSet(params, "price") ==> r.price == 0.0)
      && (!IsSet(params, "sale_price") ==> r.salePrice == 0.0)
      && (!IsSet(params, "is_on_sale") ==> !r.isOnSale)
      && (!IsSet(params, "youtube_video") ==> r.youtubeVideo == "")
      && (!IsSet(params, "featured_image_id") ==> r.featuredImageId == 0 && r.featuredImageUrl == "")
      && (!IsSet(params, "categories") ==> r.categories == [])
  {
  }

  /* ---------------------------------------------------------------
   * Listing
   * ------------------------------------------------------------- */

  /** The list route's arguments after its defaults and sanitise callbacks. */
  datatype ListQuery = ListQuery(perPage: nat, page: nat, search: string)

  function ResolveListArgs(args: RestRoutes.ListArgs, wp: WordPress): (q: ListQuery)
    ensures args.perPage.None? ==> q.perPage == DEFAULT_PER_PAGE
    ensures args.page.None? ==> q.page == DEFAULT_PAGE
    ensures args.search.None? ==> q.search == ""
  {
    ListQuery(
      match args.perPage { case None => DEFAULT_PER_PAGE case Some(j) => Absint(j) },
      match args.page { case None => DEFAULT_PAGE case Some(j) => Absint(j) },
      match args.search { case None => "" case Some(j) => wp.sanitizeTextField(j) })
  }

  /** PHP's `! empty( $search )`: the empty string and "0" both count as no search. */
  predicate SearchGiven(search: string) {
    search != "" && search != "0"
  }

  /** What the list query selects: published products, matching the search when one is given. */
  predicate Listed(p: Post, search: string, wp: WordPress) {
    p.postType == PRODUCT_TYPE && p.status == PUBLISH && (SearchGiven(search) ==> wp.matchesSearch(p, search))
  }

  /**
   * The ids below `bound` of the listed posts, newest first. Ids are handed
   * out in increasing order, so newest first is descending id.
   */
  function Matching(posts: map<int, Post>, search: string, wp: WordPress, bound: int): (ids: seq<int>)
    ensures forall i :: 0 <= i < |ids| ==> 1 <= ids[i] < bound && ids[i] in posts && Listed(posts[ids[i]], search, wp)
    ensures forall i, j :: 0 <= i < j < |ids| ==> ids[i] > ids[j]
    ensures forall id :: 1 <= id < bound && id in posts && Listed(posts[id], search, wp) ==> id in ids
    decreases bound
  {
    if bound <= 1 then []
    else
      var rest := Matching(posts, search, wp, bound - 1);
      if bound - 1 in posts && Listed(posts[bound - 1], search, wp) then [bound - 1] + rest else rest
  }

  function Min(a: int, b: int): int {
    if a <= b then a else b
  }

  /** The position of the first product on page `page`. */
  function PageStart(perPage: nat, page: nat): nat
    requires page >= 1
  {
    (page - 1) * perPage
  }

  /** Page `page` of size `perPage`: the slice [(page - 1) * perPage, page * perPage) of `ids`, cut at its end. */
  function PageOf(ids: seq<int>, perPage: nat, page: nat): (r: seq<int>)
    requires perPage >= 1 && page >= 1
    ensures |r| <= perPage
    ensures forall k :: 0 <= k < |r| ==> PageStart(perPage, page) + k < |ids| && r[k] == ids[PageStart(perPage, page) + k]
    ensures |r| < perPage ==> PageStart(perPage, page) + |r| >= |ids|
  {
    var lo := PageStart(perPage, page);
    if lo >= |ids| then [] else ids[lo..Min(lo + perPage, |ids|)]
  }

  /** `ceil( total / perPage )`. */
  function CeilDiv(total: nat, perPage: nat): nat
    requires perPage >= 1
  {
    (total + perPage - 1) / perPage
  }

  /** WP_Query's `posts_per_page`: 0 falls back to the site option, and a still-zero value becomes 1. */
  function QueryPerPage(perPage: nat, wp: WordPress): (n: nat)
    ensures n >= 1
    ensures perPage >= 1 ==> n == perPage
    ensures perPage == 0 && wp.postsPerPageOption >= 1 ==> n == wp.postsPerPageOption
    ensures perPage == 0 && wp.postsPerPageOption == 0 ==> n == 1
  {
    var m := if perPage == 0 then wp.postsPerPageOption else perPage;
    if m == 0 then 1 else m
  }

  /** WP_Query's `paged`: 0 means the first page. */
  function QueryPage(page: nat): (p: nat)
    ensures p >= 1
    ensures page >= 1 ==> p == page
    ensures page == 0 ==> p == 1
  {
    if page == 0 then 1 else page
  }

  datatype QueryResult = QueryResult(ids: seq<int>, foundPosts: nat, maxNumPages: nat)

  /**
   * The WP_Query of jeec_rest_get_products: one page of the listed products, the
   * total, and the page count. `WP_Query::set_found_posts` returns early when the
   * page holds no post, so a page past the end reports a total of 0 and 0 pages.
   */
  function Query(posts: map<int, Post>, nextId: int, q: ListQuery, wp: WordPress): (r: QueryResult)
    ensures forall i :: 0 <= i < |r.ids| ==> r.ids[i] in posts && Listed(posts[r.ids[i]], q.search, wp)
    ensures forall i, j :: 0 <= i < j < |r.ids| ==> r.ids[i] > r.ids[j]
    ensures r.ids == [] ==> r.foundPosts == 0 && r.maxNumPages == 0
    ensures r.ids != [] ==> r.foundPosts == |Matching(posts, q.search, wp, nextId)|
    ensures r.ids == PageOf(Matching(posts, q.search, wp, nextId), QueryPerPage(q.perPage, wp), QueryPage(q.page))
  {
    var all := Matching(posts, q.search, wp, nextId);
    var perPage := QueryPerPage(q.perPage, wp);
    var ids := PageOf(all, perPage, QueryPage(q.page));
    if ids == [] then QueryResult([], 0, 0) else QueryResult(ids, |all|, CeilDiv(|all|, perPage))
  }

  /** Multiplying by a natural number keeps the order. */
  lemma {:induction false} MulMonotone(a: int, b: int, n: nat)
    requires a <= b
    ensures a * n <= b * n
  {
    if n > 0 {
      MulMonotone(a, b, n - 1);
      assert a * n == a * (n - 1) + a;
      assert b * n == b * (n - 1) + b;
    }
  }

  /** For a positive divisor, `p <= x / n` exactly when `p * n <= x`. */
  lemma LeDivIff(p: int, x: nat, n: nat)
    requires n >= 1
    ensures p <= x / n <==> p * n <= x
  {
    var q := x / n;
    assert q * n + x % n == x && 0 <= x % n < n;
    if p <= q {
      MulMonotone(p, q, n);
    } else {
      MulMonotone(q + 1, p, n);
      assert (q + 1) * n == q * n + n;
    }
  }

  /** Every listed product is on exactly one page: position `i` is entry `i % n` of page `i / n + 1`. */
  lemma PageOfPosition(ids: seq<int>, n: nat, i: nat)
    requires n >= 1 && i < |ids|
    ensures var page := PageOf(ids, n, i / n + 1); i % n < |page| && page[i % n] == ids[i]
  {
    var p := i / n + 1;
    assert PageStart(n, p) + i % n == i;
  }

  /** A page has products exactly when its number is at most the page count sent as X-WP-TotalPages. */
  lemma PageNonEmptyIffWithinTotal(ids: seq<int>, n: nat, p: nat)
    requires n >= 1 && p >= 1
    ensures |PageOf(ids, n, p)| > 0 <==> p <= CeilDiv(|ids|, n)
  {
    LeDivIff(p, |ids| + n - 1, n);
  }

  /**
   * The headers of a list request: a page within the page count carries the number
   * of listed products and the page count; a page past it is empty and reports 0 and 0.
   */
  lemma QueryTotals(posts: map<int, Post>, nextId: int, q: ListQuery, wp: WordPress)
    ensures var r := Query(posts, nextId, q, wp);
      var total := |Matching(posts, q.search, wp, nextId)|;
      var n := QueryPerPage(q.perPage, wp);
      && (QueryPage(q.page) <= CeilDiv(total, n) ==>
            r.ids != [] && r.foundPosts == total && r.maxNumPages == CeilDiv(total, n))
      && (QueryPage(q.page) > CeilDiv(total, n) ==> r == QueryResult([], 0, 0))
  {
    var all := Matching(posts, q.search, wp, nextId);
    PageNonEmptyIffWithinTotal(all, QueryPerPage(q.perPage, wp), QueryPage(q.page));
  }

  /** Five listed products, two per page, first page: two products, total 5, three pages. */
  lemma PaginationExample(ids: seq<int>)
    requires |ids| == 5
    ensures |PageOf(ids, 2, 1)| == 2 && CeilDiv(|ids|, 2) == 3
  {
  }

  /* ---------------------------------------------------------------
   * Categories
   * ------------------------------------------------------------- */

  /** A post WordPress counts under a term: a published product associated with it. */
  predicate CountedUnder(p: Post, termId: int) {
    p.postType == PRODUCT_TYPE && p.status == PUBLISH && termId in p.categories
  }

  /** The ids of the posts counted under a term. */
  function CountedIds(posts: map<int, Post>, termId: int): set<int> {
    set id | id in posts && CountedUnder(posts[id], termId)
  }

  /** The term's `count`: how many products are filed under it. */
  function CountOf(posts: map<int, Post>, termId: int): nat {
    |CountedIds(posts, termId)|
  }

  /** jeec_rest_get_categories: every term, empty ones included, with its product count. */
  function GetCategories(terms: seq<Term>, posts: map<int, Post>): (r: seq<Category>)
    ensures |r| == |terms|
    ensures forall i :: 0 <= i < |r| ==>
      r[i].id == terms[i].id && r[i].name == terms[i].name && r[i].slug == terms[i].slug &&
      r[i].count == CountOf(posts, terms[i].id)
  {
    seq(|terms|, i requires 0 <= i < |terms| =>
      Category(terms[i].id, terms[i].name, terms[i].slug, CountOf(posts, terms[i].id)))
  }

  /** Taking one element out of a set lowers its size by one exactly when the element was there. */
  lemma CardWithout(s: set<int>, x: int)
    ensures |s| == |s - {x}| + (if x in s then 1 else 0)
  {
    if x in s {
      assert s == (s - {x}) + {x};
    } else {
      assert s - {x} == s;
    }
  }

  /** Replacing one post moves a term's count by what the old and the new post contribute. */
  lemma {:induction false} CountAfterReplace(posts: map<int, Post>, id: int, p: Post, termId: int)
    requires id in posts
    ensures CountOf(posts[id := p], termId)
         == CountOf(posts, termId) - (if CountedUnder(posts[id], termId) then 1 else 0)
                                   + (if CountedUnder(p, termId) then 1 else 0)
  {
    var before := CountedIds(posts, termId);
    var after := CountedIds(posts[id := p], termId);
    forall x
      ensures x in after - {id} <==> x in before - {id}
    {
      if x != id && x in posts {
        assert posts[id := p][x] == posts[x];
      }
    }
    assert after - {id} == before - {id};
    CardWithout(before, id);
    CardWithout(after, id);
  }

  /** Deleting a product takes it out of the count of every term it was filed under, and only those. */
  lemma {:induction false} CountAfterDelete(posts: map<int, Post>, id: int, termId: int)
    requires id in posts
    ensures CountOf(posts - {id}, termId)
         == CountOf(posts, termId) - (if CountedUnder(posts[id], termId) then 1 else 0)
  {
    var before := CountedIds(posts, termId);
    assert CountedIds(posts - {id}, termId) == before - {id};
    CardWithout(before, id);
  }

  /* ---------------------------------------------------------------
   * The store
   * ------------------------------------------------------------- */

  /** Writing a key twice leaves the second value. */
  lemma OverwriteTwice<K, V>(m: map<K, V>, k: K, a: V, b: V)
    ensures m[k := a][k := b] == m[k := b]
  {
  }

  class ProductStore {
    var posts: map<int, Post>
    var nextId: int
    var terms: seq<Term>
    var canEdit: bool
    const wp: WordPress

    /** Every stored id was handed out by the counter, which only grows. */
    ghost predicate Valid()
      reads this
    {
      nextId >= 1 && forall id :: id in posts ==> 1 <= id < nextId
    }

    constructor (posts: map<int, Post>, nextId: int, terms: seq<Term>, canEdit: bool, wp: WordPress)
      requires nextId >= 1 && forall id :: id in posts ==> 1 <= id < nextId
      ensures Valid()
      ensures this.posts == posts && this.nextId == nextId && this.terms == terms
      ensures this.canEdit == canEdit && this.wp == wp
    {
      this.posts := posts;
      this.nextId := nextId;
      this.terms := terms;
      this.canEdit := canEdit;
      this.wp := wp;
    }

    /** jeec_rest_get_products: the query's page, each post formatted in order, with the totals. */
    method GetProducts(args: RestRoutes.ListArgs) returns (r: Reply)
      ensures var q := Query(posts, nextId, ResolveListArgs(args, wp), wp);
        && r.Ok? && r.status == 200 && r.body.ProductPage?
        && |r.body.products| == |q.ids|
        && (forall i :: 0 <= i < |q.ids| ==> r.body.products[i] == Format(q.ids[i], posts[q.ids[i]], wp))
        && r.body.total == q.foundPosts && r.body.totalPages == q.maxNumPages
    {
      var q := Query(posts, nextId, ResolveListArgs(args, wp), wp);
      var products := FormatEach(q.ids);
      r := Ok(200, ProductPage(products, q.foundPosts, q.maxNumPages));
    }

    /** The handler's `foreach` over the query's posts, formatting each one in order. */
    method FormatEach(ids: seq<int>) returns (products: seq<Product>)
      requires forall i :: 0 <= i < |ids| ==> ids[i] in posts
      ensures |products| == |ids|
      ensures forall i :: 0 <= i < |ids| ==> products[i].id == ids[i] && products[i] == Format(ids[i], posts[ids[i]], wp)
    {
      products := [];
      for i := 0 to |ids|
        invariant |products| == i
        invariant forall k :: 0 <= k < i ==> products[k] == Format(ids[k], posts[ids[k]], wp)
      {
        products := products + [Format(ids[i], posts[ids[i]], wp)];
      }
    }

    /** jeec_update_product_meta: the meta writes in the order the handler makes them. */
    method UpdateProductMeta(id: int, params: Params)
      requires id in posts
      modifies this
      ensures posts == old(posts)[id := ApplyMeta(old(posts)[id], params, wp)]
      ensures nextId == old(nextId) && terms == old(terms) && canEdit == old(canEdit)
    {
      SavePrice(id, params);
      ghost var m1 := posts;
      SaveSalePrice(id, params);
      OverwriteTwice(old(posts), id, m1[id], posts[id]);
      ghost var m2 := posts;
      SaveOnSale(id, params);
      OverwriteTwice(old(posts), id, m2[id], posts[id]);
      ghost var m3 := posts;
      SaveVideo(id, params);
      OverwriteTwice(old(posts), id, m3[id], posts[id]);
      ghost var m4 := posts;
      SaveFeaturedImage(id, params);
      OverwriteTwice(old(posts), id, m4[id], posts[id]);
      ghost var m5 := posts;
      SaveCategories(id, params);
      OverwriteTwice(old(posts), id, m5[id], posts[id]);
    }

    method SavePrice(id: int, params: Params)
      requires id in posts
      modifies this
      ensures posts == old(posts)[id := MetaPrice(old(posts)[id], params, wp)]
      ensures nextId == old(nextId) && terms == old(terms) && canEdit == old(canEdit)
    {
      if IsSet(params, "price") {
        posts := posts[id := posts[id].(price := Floatval(params["price"], wp.parseFloat))];
      }
    }

    method SaveSalePrice(id: int, params: Params)
      requires id in posts
      modifies this
      ensures posts == old(posts)[id := MetaSalePrice(old(posts)[id], params, wp)]
      ensures nextId == old(nextId) && terms == old(terms) && canEdit == old(canEdit)
    {
      if IsSet(params, "sale_price") {
        posts := posts[id := posts[id].(salePrice := Floatval(params["sale_price"], wp.parseFloat))];
      }
    }

    method SaveOnSale(id: int, params: Params)
      requires id in posts
      modifies this
      ensures posts == old(posts)[id := MetaOnSale(old(posts)[id], params)]
      ensures nextId == old(nextId) && terms == old(terms) && canEdit == old(canEdit)
    {
      if IsSet(params, "is_on_sale") {
        posts := posts[id := posts[id].(isOnSale := ToBool(params["is_on_sale"]))];
      }
    }

    method SaveVideo(id: int, params: Params)
      requires id in posts
      modifies this
      ensures posts == old(posts)[id := MetaVideo(old(posts)[id], params, wp)]
      ensures nextId == old(nextId) && terms == old(terms) && canEdit == old(canEdit)
    {
      if IsSet(params, "youtube_video") {
        posts := posts[id := posts[id].(youtubeVideo := wp.escUrlRaw(params["youtube_video"]))];
      }
    }

    method SaveFeaturedImage(id: int, params: Params)
      requires id in posts
      modifies this
      ensures posts == old(posts)[id := MetaImage(old(posts)[id], params)]
      ensures nextId == old(nextId) && terms == old(terms) && canEdit == old(canEdit)
    {
      if IsSet(params, "featured_image_id") {
        var imageId := Intval(params["featured_image_id"]);
        if imageId != 0 {
          posts := posts[id := posts[id].(thumbnailId := imageId)];   // set_post_thumbnail
        } else {
          posts := posts[id := posts[id].(thumbnailId := 0)];         // delete_post_thumbnail
        }
      }
    }

    method SaveCategories(id: int, params: Params)
      requires id in posts
      modifies this
      ensures posts == old(posts)[id := MetaCategories(old(posts)[id], params)]
      ensures nextId == old(nextId) && terms == old(terms) && canEdit == old(canEdit)
    {
      if IsSet(params, "categories") && IsArray(params["categories"]) {
        posts := posts[id := posts[id].(categories := IntvalAll(ArrayValues(params["categories"])))];
      }
    }

    /**
     * jeec_rest_create_product: an insert error is returned as it is and
     * nothing is stored; otherwise exactly one post is added under a fresh id,
     * published, and answered with 201.
     */
    method CreateProduct(params: Params, insertError: Option<WpError>, now: string) returns (r: Reply)
      requires Valid()
      modifies this
      ensures Valid()
      ensures terms == old(terms) && canEdit == old(canEdit)
      ensures insertError.Some? ==> r == Fail(insertError.value) && posts == old(posts) && nextId == old(nextId)
      ensures insertError.None? ==>
        && old(nextId) !in old(posts)
        && (forall id :: id in old(posts) ==> id < old(nextId))
        && posts == old(posts)[old(nextId) := ApplyMeta(NewPost(params, now, wp), params, wp)]
        && nextId == old(nextId) + 1
        && r == Ok(201, ProductBody(Format(old(nextId), posts[old(nextId)], wp)))
    {
      if insertError.Some? {
        return Fail(insertError.value);
      }
      var id := nextId;
      posts := posts[id := NewPost(params, now, wp)];
      nextId := nextId + 1;
      UpdateProductMeta(id, params);
      r := Ok(201, ProductBody(Format(id, posts[id], wp)));
    }

    /**
     * jeec_rest_update_product: 404 and no change for an id that is not a
     * product; otherwise the set fields are written and the product returned.
     */
    method UpdateProduct(id: int, params: Params) returns (r: Reply)
      requires Valid()
      modifies this
      ensures Valid()
      ensures nextId == old(nextId) && terms == old(terms) && canEdit == old(canEdit)
      ensures !IsProduct(old(posts), id) ==> r == Fail(NOT_FOUND) && posts == old(posts)
      ensures IsProduct(old(posts), id) ==>
        && posts == old(posts)[id := ApplyUpdate(old(posts)[id], params, wp)]
        && r == Ok(200, ProductBody(Format(id, posts[id], wp)))
    {
      if !IsProduct(posts, id) {
        return Fail(NOT_FOUND);
      }
      posts := posts[id := ApplyPostFields(posts[id], params, wp)];   // wp_update_post
      UpdateProductMeta(id, params);
      r := Ok(200, ProductBody(Format(id, posts[id], wp)));
    }

    /**
     * jeec_rest_delete_product: 404 for an id that is not a product, 500 when
     * the store reports failure, otherwise the post is gone for good.
     */
    method DeleteProduct(id: int, storeDeletes: bool) returns (r: Reply)
      requires Valid()
      modifies this
      ensures Valid()
      ensures nextId == old(nextId) && terms == old(terms) && canEdit == old(canEdit)
      ensures !IsProduct(old(posts), id) ==> r == Fail(NOT_FOUND) && posts == old(posts)
      ensures IsProduct(old(posts), id) && !storeDeletes ==> r == Fail(DELETE_FAILED) && posts == old(posts)
      ensures IsProduct(old(posts), id) && storeDeletes ==>
        && r == Ok(200, Deleted(DeleteResult(true, id)))
        && posts == old(posts) - {id}
        && GetProduct(posts, id, wp) == Fail(NOT_FOUND)
    {
      if !IsProduct(posts, id) {
        return Fail(NOT_FOUND);
      }
      if !storeDeletes {
        return Fail(DELETE_FAILED);
      }
      posts := posts - {id};
      r := Ok(200, Deleted(DeleteResult(true, id)));
    }

    /**
     * The REST server's dispatch: the permission check runs first and, when it
     * fails, every route answers 403 and nothing changes; when it passes, the
     * route's handler answers and changes the store as that handler does.
     */
    method Dispatch(route: RestRoutes.Route, fx: StoreEffects) returns (r: Reply)
      requires Valid()
      modifies this
      ensures Valid()
      ensures terms == old(terms) && canEdit == old(canEdit)
      ensures !canEdit ==> r == Fail(FORBIDDEN) && posts == old(posts) && nextId == old(nextId)
      ensures route.GetProduct? || route.ListProducts? || route.ListCategories? ==>
        posts == old(posts) && nextId == old(nextId)
      ensures canEdit && route.GetProduct? ==> r == GetProduct(posts, route.id, wp)
      ensures canEdit && route.ListProducts? ==>
        var q := Query(posts, nextId, ResolveListArgs(route.args, wp), wp);
        && r.Ok? && r.status == 200 && r.body.ProductPage?
        && |r.body.products| == |q.ids|
        && (forall i :: 0 <= i < |q.ids| ==> r.body.products[i] == Format(q.ids[i], posts[q.ids[i]], wp))
        && r.body.total == q.foundPosts && r.body.totalPages == q.maxNumPages
      ensures canEdit && route.CreateProduct? && fx.insertError.Some? ==>
        r == Fail(fx.insertError.value) && posts == old(posts) && nextId == old(nextId)
      ensures canEdit && route.CreateProduct? && fx.insertError.None? ==>
        && old(nextId) !in old(posts)
        && posts == old(posts)[old(nextId) := ApplyMeta(NewPost(route.params, fx.now, wp), route.params, wp)]
        && nextId == old(nextId) + 1
        && r == Ok(201, ProductBody(Format(old(nextId), posts[old(nextId)], wp)))
      ensures canEdit && (route.UpdateProduct? || route.DeleteProduct?) ==> nextId == old(nextId)
      ensures canEdit && (route.UpdateProduct? || route.DeleteProduct?) && !IsProduct(old(posts), route.id) ==>
        r == Fail(NOT_FOUND) && posts == old(posts)
      ensures canEdit && route.UpdateProduct? && IsProduct(old(posts), route.id) ==>
        && posts == old(posts)[route.id := ApplyUpdate(old(posts)[route.id], route.params, wp)]
        && r == Ok(200, ProductBody(Format(route.id, posts[route.id], wp)))
      ensures canEdit && route.DeleteProduct? && IsProduct(old(posts), route.id) && !fx.deleteSucceeds ==>
        r == Fail(DELETE_FAILED) && posts == old(posts)
      ensures canEdit && route.DeleteProduct? && IsProduct(old(posts), route.id) && fx.deleteSucceeds ==>
        r == Ok(200, Deleted(DeleteResult(true, route.id))) && posts == old(posts) - {route.id}
      ensures canEdit && route.ListCategories? ==> r == Ok(200, CategoryList(GetCategories(terms, posts)))
    {
      var denied := PermissionCheck(canEdit);
      if denied.Some? {
        return Fail(denied.value);
      }
      match route
      case ListProducts(args) =>
        r := GetProducts(args);
      case CreateProduct(params) =>
        r := CreateProduct(params, fx.insertError, fx.now);
      case GetProduct(id) =>
        r := GetProduct(posts, id, wp);
      case UpdateProduct(id, params) =>
        r := UpdateProduct(id, params);
      case DeleteProduct(id) =>
        r := DeleteProduct(id, fx.deleteSucceeds);
      case ListCategories =>
        r := Ok(200, CategoryList(GetCategories(terms, posts)));
    }
  }

  /**
   * A product's life on an empty store: created with only a title it is answered
   * 201 with price 0 and no sale; a price update answers 200 with the new price
   * and the title unchanged; the delete answers {deleted: true, id}; a later read
   * is a 404.
   */
  method Lifecycle(wp: WordPress, now: string) returns (created: Reply, updated: Reply, deleted: Reply, fetched: Reply)
    ensures created.Ok? && created.status == 201 && created.body.ProductBody?
    ensures created.body.product.price == 0.0 && !created.body.product.isOnSale
    ensures created.body.product.title == wp.sanitizeTextField(JStr("Phone"))
    ensures updated.Ok? && updated.status == 200 && updated.body.ProductBody?
    ensures updated.body.product.price == 49.99 && updated.body.product.title == created.body.product.title
    ensures deleted == Ok(200, Deleted(DeleteResult(true, created.body.product.id)))
    ensures fetched == Fail(NOT_FOUND)
  {
    var store := new ProductStore(map[], 1, [], true, wp);
    var params: Params := map["title" := JStr("Phone")];
    created := store.CreateProduct(params, None, now);
    var id := created.body.product.id;
    assert id == 1 && IsProduct(store.posts, id);
    var change: Params := map["price" := JNum(49.99)];
    var before := store.posts[id];
    updated := store.UpdateProduct(id, change);
    UpdateKeepsUnsetFields(before, change, wp);
    deleted := store.DeleteProduct(id, true);
    fetched := GetProduct(store.posts, id, wp);
  }
}

=== FILE: rest_routes.dfy ===
/**
 * The route table of the `jeec/v1` namespace (inc/rest-api.php, jeec_register_rest_routes):
 * which handler a request reaches, given its method, its URL and its decoded JSON body.
 */
module RestRoutes {
  import opened Wrappers
  import opened Json
  import Decimal

  datatype HttpMethod = GET | POST | PUT | PATCH | DELETE

  const NAMESPACE := "/jeec/v1"
  const PRODUCTS_ROUTE := NAMESPACE + "/products"
  const PRODUCT_ROUTE_PREFIX := PRODUCTS_ROUTE + "/"
  const CATEGORIES_ROUTE := NAMESPACE + "/product-categories"

  /** The raw `per_page`, `page` and `search` arguments of the list route, before defaults and sanitising. */
  datatype ListArgs = ListArgs(perPage: Option<Json>, page: Option<Json>, search: Option<Json>)

  /** A matched route: which handler runs, with the arguments it reads. */
  datatype Route =
    | ListProducts(args: ListArgs)
    | CreateProduct(params: Params)
    | GetProduct(id: int)
    | UpdateProduct(id: int, params: Params)
    | DeleteProduct(id: int)
    | ListCategories

  /** Index of the first `c` in `s`, or `|s|` when there is none. */
  function Find(s: string, c: char): (k: nat)
    ensures k <= |s|
    ensures k < |s| ==> s[k] == c
    ensures forall i :: 0 <= i < k ==> s[i] != c
  {
    if s == [] || s[0] == c then 0 else 1 + Find(s[1..], c)
  }

  /** The path of a URL: everything before the first `?`. */
  function PathOf(url: string): string {
    url[..Find(url, '?')]
  }

  /** The query string of a URL: everything after the first `?`. */
  function QueryOf(url: string): string {
    var k := Find(url, '?');
    if k < |url| then url[k + 1..] else ""
  }

  /**
   * The query string as a map from key to value: items are separated by `&`,
   * a key is separated from its value by the first `=`, a key without `=` has
   * the empty value, and a later duplicate key wins.
   */
  function ParseQuery(q: string): map<string, string>
    decreases |q|
  {
    if q == [] then map[]
    else
      var k := Find(q, '&');
      var item := q[..k];
      var e := Find(item, '=');
      var here := if item == [] then map[] else map[item[..e] := if e < |item| then item[e + 1..] else ""];
      var rest := if k < |q| then ParseQuery(q[k + 1..]) else map[];
      here + rest
  }

  function QueryParam(query: map<string, string>, key: string): Option<Json> {
    if key in query then Some(JStr(query[key])) else None
  }

  /** `/jeec/v1/products/(?P<id>\d+)`: the fixed prefix followed by one or more digits. */
  predicate IsProductItemPath(path: string) {
    |path| > |PRODUCT_ROUTE_PREFIX| &&
    path[..|PRODUCT_ROUTE_PREFIX|] == PRODUCT_ROUTE_PREFIX &&
    Decimal.AllDigits(path[|PRODUCT_ROUTE_PREFIX|..])
  }

  /**
   * The handler a request reaches, or None when no route of the namespace
   * matches (WordPress then answers `rest_no_route`). The list route takes its
   * arguments from the query string; the item routes read the id from the URL.
   */
  function Resolve(m: HttpMethod, url: string, body: Params): Option<Route> {
    var path := PathOf(url);
    if path == PRODUCTS_ROUTE then
      match m
      case GET =>
        var query := ParseQuery(QueryOf(url));
        Some(ListProducts(ListArgs(QueryParam(query, "per_page"), QueryParam(query, "page"), QueryParam(query, "search"))))
      case POST => Some(CreateProduct(body))
      case _ => None
    else if IsProductItemPath(path) then
      var id := Intval(JStr(path[|PRODUCT_ROUTE_PREFIX|..]));
      match m
      case GET => Some(GetProduct(id))
      case POST => Some(UpdateProduct(id, body))
      case PUT => Some(UpdateProduct(id, body))
      case PATCH => Some(UpdateProduct(id, body))
      case DELETE => Some(DeleteProduct(id))
    else if path == CATEGORIES_ROUTE && m == GET then Some(ListCategories)
    else None
  }

  lemma FindAbsent(s: string, c: char)
    requires forall i :: 0 <= i < |s| ==> s[i] != c
    ensures Find(s, c) == |s|
  {
  }

  lemma FindFirst(a: string, c: char, b: string)
    requires forall i :: 0 <= i < |a| ==> a[i] != c
    ensures Find(a + [c] + b, c) == |a|
  {
    var s := a + [c] + b;
    assert s[|a|] == c;
  }

  /** A URL without `?` is all path. */
  lemma PathOfPlain(url: string)
    requires forall i :: 0 <= i < |url| ==> url[i] != '?'
    ensures PathOf(url) == url
  {
    FindAbsent(url, '?');
  }

  /** `path?query` splits back into its path and its query. */
  lemma SplitUrl(path: string, query: string)
    requires forall i :: 0 <= i < |path| ==> path[i] != '?'
    ensures PathOf(path + "?" + query) == path
    ensures QueryOf(path + "?" + query) == query
  {
    FindFirst(path, '?', query);
    var url := path + "?" + query;
    assert url[..|path|] == path;
    assert url[|path| + 1..] == query;
  }

  /** A query string with a single `key=value` item parses to that one pair. */
  lemma ParseSingleQuery(key: string, value: string)
    requires key != []
    requires forall i :: 0 <= i < |key| ==> key[i] != '=' && key[i] != '&'
    requires forall i :: 0 <= i < |value| ==> value[i] != '&'
    ensures ParseQuery(key + "=" + value) == map[key := value]
  {
    var q := key + "=" + value;
    FindAbsent(q, '&');
    assert q[..|q|] == q;
    FindFirst(key, '=', value);
    assert q[..|key|] == key;
    assert q[|key| + 1..] == value;
  }

  /** The fixed routes hold no `?` and are told apart from each other and from item paths. */
  lemma FixedRoutes()
    ensures forall i :: 0 <= i < |PRODUCTS_ROUTE| ==> PRODUCTS_ROUTE[i] != '?'
    ensures forall i :: 0 <= i < |CATEGORIES_ROUTE| ==> CATEGORIES_ROUTE[i] != '?'
    ensures PRODUCTS_ROUTE != CATEGORIES_ROUTE
    ensures !IsProductItemPath(PRODUCTS_ROUTE) && !IsProductItemPath(CATEGORIES_ROUTE)
  {
    assert |PRODUCTS_ROUTE| == 17 && |CATEGORIES_ROUTE| == 27;
    assert CATEGORIES_ROUTE[..18] != PRODUCT_ROUTE_PREFIX by {
      assert CATEGORIES_ROUTE[17] == 'c' && PRODUCT_ROUTE_PREFIX[17] == '/';
    }
  }

  /** A GET of the collection path reaches the list route with the query's arguments. */
  lemma ResolveList(query: string, body: Params)
    ensures var args := ParseQuery(query);
            Resolve(GET, PRODUCTS_ROUTE + "?" + query, body)
            == Some(ListProducts(ListArgs(QueryParam(args, "per_page"), QueryParam(args, "page"), QueryParam(args, "search"))))
  {
    FixedRoutes();
    SplitUrl(PRODUCTS_ROUTE, query);
  }

  /** A POST of the collection path reaches the create route with the body. */
  lemma ResolveCreate(body: Params)
    ensures Resolve(POST, PRODUCTS_ROUTE, body) == Some(CreateProduct(body))
  {
    FixedRoutes();
    PathOfPlain(PRODUCTS_ROUTE);
  }

  /** A GET of the categories path reaches the categories route. */
  lemma ResolveCategories(body: Params)
    ensures Resolve(GET, CATEGORIES_ROUTE, body) == Some(ListCategories)
  {
    FixedRoutes();
    PathOfPlain(CATEGORIES_ROUTE);
  }

  /** The prefix followed by digits is a plain item path whose id text is the digits. */
  lemma ItemPathOfDigits(digits: string)
    requires digits != [] && Decimal.AllDigits(digits)
    ensures var url := PRODUCT_ROUTE_PREFIX + digits;
            && PathOf(url) == url && url != PRODUCTS_ROUTE && IsProductItemPath(url)
            && url[|PRODUCT_ROUTE_PREFIX|..] == digits
  {
    var url := PRODUCT_ROUTE_PREFIX + digits;
    forall i | 0 <= i < |url|
      ensures url[i] != '?'
    {
      if i >= |PRODUCT_ROUTE_PREFIX| {
        assert url[i] == digits[i - |PRODUCT_ROUTE_PREFIX|];
      }
    }
    PathOfPlain(url);
    assert url[..|PRODUCT_ROUTE_PREFIX|] == PRODUCT_ROUTE_PREFIX;
    assert url[|PRODUCT_ROUTE_PREFIX|..] == digits;
    assert |url| > |PRODUCTS_ROUTE|;
  }

  /** The item route matches exactly the prefix followed by a non-empty run of digits, and reads the id from them. */
  lemma ResolveItemPath(m: HttpMethod, digits: string, body: Params)
    requires digits != [] && Decimal.AllDigits(digits)
    ensures var r := Resolve(m, PRODUCT_ROUTE_PREFIX + digits, body);
            var id := Decimal.LeadingInt(digits);
            && (m == GET ==> r == Some(GetProduct(id)))
            && (m == POST || m == PUT || m == PATCH ==> r == Some(UpdateProduct(id, body)))
            && (m == DELETE ==> r == Some(DeleteProduct(id)))
  {
    ItemPathOfDigits(digits);
    var url := PRODUCT_ROUTE_PREFIX + digits;
    ResolveAtItem(m, url, body);
    assert Intval(JStr(digits)) == Decimal.LeadingInt(digits);
  }

  lemma ResolveAtItem(m: HttpMethod, url: string, body: Params)
    requires PathOf(url) == url && url != PRODUCTS_ROUTE && IsProductItemPath(url)
    ensures var r := Resolve(m, url, body);
            var id := Intval(JStr(url[|PRODUCT_ROUTE_PREFIX|..]));
            && (m == GET ==> r == Some(GetProduct(id)))
            && (m == POST || m == PUT || m == PATCH ==> r == Some(UpdateProduct(id, body)))
            && (m == DELETE ==> r == Some(DeleteProduct(id)))
  {
  }

  /** A product URL whose id has a sign is not matched by any route. */
  lemma NegativeIdHasNoRoute(m: HttpMethod, digits: string, body: Params)
    requires Decimal.AllDigits(digits)
    ensures Resolve(m, PRODUCT_ROUTE_PREFIX + "-" + digits, body) == None
  {
    var url := PRODUCT_ROUTE_PREFIX + "-" + digits;
    PathOfPlain(url);
    assert url[|PRODUCT_ROUTE_PREFIX|] == '-';
    assert !IsProductItemPath(url) by {
      if |url| > |PRODUCT_ROUTE_PREFIX| && url[..|PRODUCT_ROUTE_PREFIX|] == PRODUCT_ROUTE_PREFIX {
        assert url[|PRODUCT_ROUTE_PREFIX|..][0] == '-';
      }
    }
    assert url != PRODUCTS_ROUTE by { assert |url| > |PRODUCTS_ROUTE|; }
    assert url != CATEGORIES_ROUTE by {
      if |url| == |CATEGORIES_ROUTE| {
        assert url[16] == 's' && CATEGORIES_ROUTE[16] == '-';
      }
    }
  }
}

=== FILE: seqs.dfy ===
/** `Array.prototype.filter` on sequences: the order-keeping selection both list removals use. */
module Seqs {

  function Filter<T>(s: seq<T>, keep: T -> bool): (r: seq<T>)
    ensures |r| <= |s|
    ensures forall i :: 0 <= i < |r| ==> r[i] in s && keep(r[i])
    ensures forall i :: 0 <= i < |s| && keep(s[i]) ==> s[i] in r
  {
    if s == [] then []
    else (if keep(s[0]) then [s[0]] else []) + Filter(s[1..], keep)
  }

  /** Filtering distributes over concatenation: kept elements stay in their original order. */
  lemma {:induction false} FilterConcat<T>(a: seq<T>, b: seq<T>, keep: T -> bool)
    ensures Filter(a + b, keep) == Filter(a, keep) + Filter(b, keep)
  {
    if a != [] {
      assert (a + b)[0] == a[0] && (a + b)[1..] == a[1..] + b;
      FilterConcat(a[1..], b, keep);
      var head := if keep(a[0]) then [a[0]] else [];
      calc {
        Filter(a + b, keep);
        head + Filter(a[1..] + b, keep);
        head + (Filter(a[1..], keep) + Filter(b, keep));
        (head + Filter(a[1..], keep)) + Filter(b, keep);
      }
    } else {
      assert a + b == b;
    }
  }

  /** When every element is kept, filtering returns the sequence itself. */
  lemma {:induction false} FilterKeepsAll<T>(s: seq<T>, keep: T -> bool)
    requires forall i :: 0 <= i < |s| ==> keep(s[i])
    ensures Filter(s, keep) == s
  {
    if s != [] {
      FilterKeepsAll(s[1..], keep);
    }
  }

  /** Filtering twice with the same test is filtering once. */
  lemma FilterIdempotent<T>(s: seq<T>, keep: T -> bool)
    ensures Filter(Filter(s, keep), keep) == Filter(s, keep)
  {
    FilterKeepsAll(Filter(s, keep), keep);
  }
}

=== FILE: types.dfy ===
/** The shapes the admin app and the REST routes exchange (src/types/index.ts). */
module Types {
  import opened Wrappers

  /** A product as the REST API returns it. */
  datatype Product = Product(
    id: int,
    title: string,
    description: string,
    price: real,
    salePrice: real,
    isOnSale: bool,
    youtubeVideo: string,
    featuredImageId: int,
    featuredImageUrl: string,
    categories: seq<int>,
    date: string,
    status: string)

  /** What the form sends to create or update a product. */
  datatype ProductPayload = ProductPayload(
    title: string,
    description: string,
    price: real,
    salePrice: real,
    isOnSale: bool,
    youtubeVideo: string,
    featuredImageId: int,
    categories: seq<int>)

  /** `Partial<ProductPayload>`: every key may be left out. */
  datatype PartialPayload = PartialPayload(
    title: Option<string>,
    description: Option<string>,
    price: Option<real>,
    salePrice: Option<real>,
    isOnSale: Option<bool>,
    youtubeVideo: Option<string>,
    featuredImageId: Option<int>,
    categories: Option<seq<int>>)

  /** A full payload seen as a partial one that sets every key. */
  function AsPartial(p: ProductPayload): (q: PartialPayload)
    ensures q.title.Some? && q.description.Some? && q.price.Some? && q.salePrice.Some?
    ensures q.isOnSale.Some? && q.youtubeVideo.Some? && q.featuredImageId.Some? && q.categories.Some?
  {
    PartialPayload(Some(p.title), Some(p.description), Some(p.price), Some(p.salePrice),
                   Some(p.isOnSale), Some(p.youtubeVideo), Some(p.featuredImageId), Some(p.categories))
  }

  /** A product category (taxonomy term) with the number of products filed under it. */
  datatype Category = Category(id: int, name: string, slug: string, count: nat)

  datatype NoticeStatus = Success | Error | Warning | Info

  /** The transient message shown at the top of the app. */
  datatype Notice = Notice(status: NoticeStatus, message: string)

  datatype Screen = ListScreen | AddScreen | EditScreen

  /** The body of a successful delete. */
  datatype DeleteResult = DeleteResult(deleted: bool, id: int)

  /** How an awaited request ended: resolved with a value, or rejected. */
  datatype Settled<T> = Resolved(value: T) | Rejected
}

=== FILE: use_products.dfy ===
/**
 * The `useProducts` hook (src/hooks/useProducts.ts): the product list the admin
 * screen shows, its loading flag, and the removal of one product.
 *
 * Each awaited request is two events: the call that sends it (returning the
 * request it sends) and the later call that settles it with the outcome.
 */
module UseProducts {
  import opened Wrappers
  import opened Types
  import Seqs
  import RestRoutes
  import ProductsApi

  const LOAD_FAILED := "Failed to load products."

  /** The test `prev.filter` keeps: every product whose id is not `id`. */
  function OtherThan(id: int): Product -> bool {
    (p: Product) => p.id != id
  }

  /** The list once the product `id` is gone: every entry with that id dropped, the rest kept. */
  function WithoutId(products: seq<Product>, id: int): (r: seq<Product>)
    ensures |r| <= |products|
    ensures forall i :: 0 <= i < |r| ==> r[i].id != id
    ensures forall p :: p in r <==> p in products && p.id != id
  {
    var r := Seqs.Filter(products, OtherThan(id));
    assert forall p :: p in products && p.id != id ==> p in r by {
      forall p | p in products && p.id != id ensures p in r {
        var i :| 0 <= i < |products| && products[i] == p;
      }
    }
    r
  }

  /** Removal keeps the surviving products in the order they were listed. */
  lemma WithoutIdKeepsOrder(a: seq<Product>, b: seq<Product>, id: int)
    ensures WithoutId(a + b, id) == WithoutId(a, id) + WithoutId(b, id)
  {
    Seqs.FilterConcat(a, b, OtherThan(id));
  }

  /** Removing an id nothing carries changes nothing; so removing twice is removing once. */
  lemma WithoutAbsentId(products: seq<Product>, id: int)
    requires forall i :: 0 <= i < |products| ==> products[i].id != id
    ensures WithoutId(products, id) == products
    ensures WithoutId(WithoutId(products, id), id) == products
  {
    Seqs.FilterKeepsAll(products, OtherThan(id));
  }

  /** How many entries of the list carry the id. */
  function Occurrences(products: seq<Product>, id: int): (n: nat)
    ensures n <= |products|
    ensures n == 0 <==> forall i :: 0 <= i < |products| ==> products[i].id != id
  {
    if products == [] then 0
    else (if products[0].id == id then 1 else 0) + Occurrences(products[1..], id)
  }

  /** Removal shortens the list by exactly the number of entries carrying the id. */
  lemma {:induction false} WithoutIdCount(products: seq<Product>, id: int)
    ensures |WithoutId(products, id)| == |products| - Occurrences(products, id)
  {
    if products != [] {
      WithoutIdCount(products[1..], id);
    }
  }

  /** The state the hook hands to the product list. */
  class ProductsHook {
    var products: seq<Product>
    var loading: bool

    /** Mounting: an empty list, already loading (the mount effect issues the first refresh). */
    constructor()
      ensures products == [] && loading
    {
      products := [];
      loading := true;
    }

    /** `refresh`: raises the loading flag and asks for the list with the default page size. */
    method Refresh() returns (req: ProductsApi.Request)
      modifies this
      ensures loading && products == old(products)
      ensures req == ProductsApi.GetProducts(None)
    {
      loading := true;
      req := ProductsApi.GetProducts(None);
    }

    /**
     * The list request settles: a fetched list replaces the old one; a failure keeps
     * it and yields the error notice; either way loading ends.
     */
    method RefreshSettled(outcome: Settled<seq<Product>>) returns (notice: Option<Notice>)
      modifies this
      ensures !loading
      ensures outcome.Resolved? ==> products == outcome.value && notice == None
      ensures outcome.Rejected? ==> products == old(products) && notice == Some(Notice(Error, LOAD_FAILED))
    {
      match outcome {
        case Resolved(list) =>
          products := list;
          notice := None;
        case Rejected =>
          notice := Some(Notice(Error, LOAD_FAILED));
      }
      loading := false;
    }

    /** `removeProduct(id)` starts: it sends the delete and changes nothing until that settles. */
    method RemoveProduct(id: int) returns (req: ProductsApi.Request)
      ensures req.httpMethod == Some(RestRoutes.DELETE)
      ensures req.path == ProductsApi.GetProduct(id).path
    {
      req := ProductsApi.DeleteProduct(id);
    }

    /**
     * The delete settles: on success every entry with the id leaves the list as it is
     * now; on failure the list stays and the rejection propagates (`done` is false).
     */
    method RemoveProductSettled(id: int, outcome: Settled<DeleteResult>) returns (done: bool)
      modifies this
      ensures done <==> outcome.Resolved?
      ensures done ==> products == WithoutId(old(products), id)
      ensures !done ==> products == old(products)
      ensures loading == old(loading)
    {
      done := outcome.Resolved?;
      if done {
        products := WithoutId(products, id);
      }
    }
  }
}

=== FILE: wrappers.dfy ===
/** The optional value used wherever the source has `null`, `undefined` or an absent key. */
module Wrappers {

  datatype Option<+T> = None | Some(value: T) {

    /** The wrapped value, or `default` when there is none (JavaScript's default parameter). */
    function GetOr(default: T): T {
      match this
      case Some(v) => v
      case None => default
    }
  }
}
